=== FILE: README.md ===
# Q&A board: decision logic of the client and the user endpoints

This project models, in Dafny, the decision logic of a small question-and-answer
board made of a React client and a FastAPI backend. The modelled parts are:

- the list-response envelope normaliser;
- the session reducer and its local-storage mirror;
- the error box, which maps an `ApiError` to the lines shown;
- the configuration helpers of the client (`env.ts`) and of the backend (`config.py`);
- the controllers of six pages (registration, login, question list, question
  detail, question edit, answer edit);
- the backend's registration and login decisions over the user table.

Everything is modelled as immutable datatypes and pure functions:

- A page is a function `Step(page, event) -> (page', effects)`. An API call is an
  effect token. Its outcome comes back as a later event: a resolve, or a reject
  carrying the thrown value.
- JavaScript strings are Dafny strings. JavaScript `length` and `substring` are
  modelled on UTF-16 code units (`Unicode.Utf16`). Python's `encode('utf-8')` is
  an explicit UTF-8 encoder (`Unicode.Utf8`), proved injective.
- JavaScript `parseInt` (`Text.ParseInt`) and Python `int()` (`Text.PyInt`) are
  written out. `None` stands for NaN and for the `ValueError` respectively.
- bcrypt is symbolic. A hash records the key bytes and the salt it was made from,
  so a key checks against a hash exactly when it is the key that made it. Real
  bcrypt behaves so only on keys without a 0 byte, so the model speaks for
  passwords without U+0000 (see "## Left out"). JWT
  signing is symbolic too: a token records its claims, key and algorithm.
- The clock, the random salt, the environment variables and local storage are
  parameters of the functions that read them.

Modules, one per source file or component:

- `Wrappers`, `Text`, `Unicode`, `Json`: helpers.
- `QuestionUtils`, `AuthContext`, `ErrorView`, `Env`, `Settings`: the utilities.
- `PageCommon`: what all pages share. This is the catch-block classifier, runs of
  a controller, and the single-request theorem.
- One module per page: `UserCreatePage`, `UserLoginPage`, `QuestionListPage`,
  `QuestionDetailPage`, `QuestionModifyPage`, `AnswerModifyPage`.
- `UserCrud` and `UserRouter` for the backend.

Behaviours of the code worth noting:

- After logout the record under "auth" does not stay absent. The persist effect
  writes the anonymous state back (`AuthContext.LogoutKeyReappears`).
- Restoring a session adopts the stored record verbatim. It does not validate it
  (`AuthContext.RestoreMayBreakConsistency`).
- The `err instanceof Error` branch of every catch block is unreachable. An
  `Error` is an object, so it is stored as an object, and the error box shows its
  `message` (`PageCommon.ErrorInstanceTakesObjectBranch`).

## Model

| member | source | states |
|---|---|---|
| QuestionUtils.ParseQuestionListResponse | frontend/src/utils/questionUtils.ts:4-47 | a result is a list of valid questions (numeric `id`, string `subject`, `content`, `create_date`), taken from the data itself, its `items` or its `questions`; every failure is the one format error |
| QuestionUtils.ParseWrap | frontend/src/utils/questionUtils.ts:21-43 | any of the three envelopes around a valid list parses back to that list, whatever other fields the object holds; the one exception is a `{questions}` object that also has a valid `items` |
| QuestionUtils.ParseOkIsWrapped | frontend/src/utils/questionUtils.ts:21-47 | conversely, whatever parses is one of the three envelopes around the result |
| QuestionUtils.EmptyArrayAccepted | frontend/src/utils/questionUtils.ts:16-25 | an empty array is a valid list and yields no questions |
| QuestionUtils.BareArrayUnchanged | frontend/src/utils/questionUtils.ts:23-25 | a bare array of valid questions is returned unchanged |
| QuestionUtils.InvalidElementRejects | frontend/src/utils/questionUtils.ts:16-18 | one invalid element makes a bare array fail with the format error |
| QuestionUtils.ItemsWinsOverQuestions | frontend/src/utils/questionUtils.ts:28-43 | when both `items` and `questions` are valid lists, `items` is returned |
| QuestionUtils.QuestionsOnlyAsFallback | frontend/src/utils/questionUtils.ts:28-43 | `questions` is returned exactly when `items` is not a valid list, or is the same list |
| QuestionUtils.OtherFieldsIgnored | frontend/src/utils/questionUtils.ts:27-34 | adding or changing any field other than `items` and `questions` (such as `total`) never changes the outcome |
| QuestionUtils.ScalarsRejected | frontend/src/utils/questionUtils.ts:45-46 | null, booleans, numbers and strings fail with the format error |
| QuestionUtils.UnknownKeyRejected | frontend/src/utils/questionUtils.ts:37-46 | a list under any other key fails with the format error |
| AuthContext.Reduce | frontend/src/contexts/AuthContext.tsx:26-45 | LOGIN installs the payload's user and token and sets authenticated; LOGOUT yields the anonymous state; RESTORE_SESSION yields its payload; any other action leaves the state as it was |
| AuthContext.InitialStateConsistent | frontend/src/contexts/AuthContext.tsx:20-24 | the initial state is authenticated exactly when it has a user, exactly when it has a token |
| AuthContext.LoginLogoutEstablishConsistency | frontend/src/contexts/AuthContext.tsx:28-39 | LOGIN and LOGOUT produce a consistent state from any state |
| AuthContext.RestoreMayBreakConsistency | frontend/src/contexts/AuthContext.tsx:40-41 | RESTORE_SESSION adopts an inconsistent payload as it is |
| AuthContext.LoginOverwrites | frontend/src/contexts/AuthContext.tsx:28-33 | the state after LOGIN does not depend on the state before, so a second login overwrites the first |
| AuthContext.LogoutIdempotent | frontend/src/contexts/AuthContext.tsx:34-39 | logging out twice equals logging out once |
| AuthContext.LastWriteWins | frontend/src/contexts/AuthContext.tsx:72-74 | after a run of storage writes ending in a `setItem`, storage holds that last value, whatever it held before |
| AuthContext.RestoreAction | frontend/src/contexts/AuthContext.tsx:59-69 | RESTORE_SESSION is dispatched exactly when a saved record exists and parses, with that record as payload; a parse failure dispatches nothing |
| AuthContext.Mount | frontend/src/contexts/AuthContext.tsx:55-74 | after mounting, the state is the saved record when one parses and the initial state otherwise, and storage holds the current state |
| AuthContext.ProviderLogin | frontend/src/contexts/AuthContext.tsx:72-78 | `login` yields the authenticated, consistent state for the user and token, and storage holds it |
| AuthContext.ProviderLogout | frontend/src/contexts/AuthContext.tsx:72-83 | `logout` yields the anonymous state, and storage ends up holding the anonymous state |
| AuthContext.LogoutKeyReappears | frontend/src/contexts/AuthContext.tsx:72-83 | logout removes the key, and the persist effect that follows writes a record back |
| AuthContext.LoginSurvivesReload | frontend/src/contexts/AuthContext.tsx:59-78 | mounting a fresh provider over the storage a login left behind restores exactly the logged-in session |
| AuthContext.MirrorInvariant | frontend/src/contexts/AuthContext.tsx:72-83 | over any sequence of logins and logouts, storage mirrors the state, and the state is consistent after the first operation |
| ErrorView.FieldLabel | frontend/src/components/Error.tsx:53 | a validation failure is labelled by its second location entry when that is non-empty, else by its first |
| ErrorView.Lines | frontend/src/components/Error.tsx:9-75 | a falsy error renders nothing; only a non-empty validation list renders more than one line; no text line is empty |
| ErrorView.StringRendersItself | frontend/src/components/Error.tsx:25-33 | a non-empty string renders as exactly that one line |
| ErrorView.DetailTextIgnoresMessage | frontend/src/components/Error.tsx:38-46 | a non-empty string `detail` renders alone, whatever `message` holds |
| ErrorView.DetailListOneLineEach | frontend/src/components/Error.tsx:47-58 | a non-empty validation list renders one labelled line per failure, in order |
| ErrorView.FallsThroughToMessage | frontend/src/components/Error.tsx:38-74 | an empty or missing `detail` falls through to one `message` line when `message` is non-empty, and to nothing otherwise |
| ErrorView.RendersSomethingIff | frontend/src/components/Error.tsx:9-75 | the box shows something exactly when there is a non-empty string where the component looks |
| Env.ParseBoolean | frontend/src/config/env.ts:17-19 | true exactly when the value is defined and spells "true" in any letter case |
| Env.OrDefault | frontend/src/config/env.ts:31-32 | the default replaces both an undefined and an empty value |
| Env.LoadConfig | frontend/src/config/env.ts:30-40 | the node environment and the API base URL are their variables when set and not empty, else "development" and the local backend; each of the six toggles is on exactly when its variable spells "true" in any letter case |
| Env.EnvironmentFromVars | frontend/src/config/env.ts:31 | development exactly when `VITE_NODE_ENV` is unset, empty or "development"; production exactly when it is "production" |
| Env.ApiUrlFromVars | frontend/src/config/env.ts:32 | without `VITE_API_BASE_URL`, every endpoint, with or without a leading slash, is joined to the local backend by one slash |
| Env.DefaultConfig | frontend/src/config/env.ts:30-40 | with nothing set, the client is in development against http://localhost:8000 with every toggle off |
| Env.DropTrailingSlash | frontend/src/config/env.ts:44 | removes exactly one trailing slash when there is one, and nothing otherwise |
| Env.DropLeadingSlash | frontend/src/config/env.ts:45 | removes exactly one leading slash when there is one, and nothing otherwise |
| Env.CreateApiUrl | frontend/src/config/env.ts:43-48 | the URL is the cleaned base, one slash and the cleaned endpoint, so its length is their lengths plus one |
| Env.CreateApiUrlOneSlash | frontend/src/config/env.ts:43-48 | with or without one slash on either side of the joint, the result has exactly one slash there |
| Env.CreateApiUrlKeepsExtraSlashes | frontend/src/config/env.ts:44-47 | only one slash is removed from each side, so further slashes survive |
| Env.EnvironmentsExclusive | frontend/src/config/env.ts:51-58 | development and production are never both true |
| Env.DebugLogWrites | frontend/src/config/env.ts:61-65 | debug logging writes exactly when debug is set and the environment is development, so never in production |
| Env.ConfigDumped | frontend/src/config/env.ts:68-70 | the configuration is dumped exactly in development with verbose logging |
| Env.DebugLoggingFromVars | frontend/src/config/env.ts:30-65 | debug logging is on exactly when `VITE_DEBUG` spells "true" and `VITE_NODE_ENV` is unset, empty or "development" |
| Settings.Flag | config.py:19 | a flag is true exactly when its variable is set and spells "true" in any letter case; unset means false |
| Settings.AllowedOrigins | config.py:27-30 | one origin per comma-separated piece (commas plus one), none containing a comma, each the piece stripped of whitespace |
| Settings.AllowedOriginsRoundTrip | config.py:27-30 | origins without commas or surrounding whitespace, joined with commas, come back exactly |
| Settings.Load | config.py:16-40 | each text setting is its variable when set, even to "", else its default; each flag is on exactly when its variable spells "true" in any letter case; the origins are the split variable, by default only the local frontend |
| Settings.EnvironmentFromVar | config.py:20 | development exactly when `ENVIRONMENT` is unset, "development" or "local"; production exactly when it is "production"; set to "" it is neither |
| Settings.EnvironmentsExclusive | config.py:43-50 | `is_development` and `is_production` are never both true |
| Settings.PrintsConfig | config.py:72-73 | the configuration is printed exactly in development or local with `DEBUG`, so never in production |
| Settings.DefaultSettings | config.py:16-40 | with no variables set, the backend is in development without DEBUG, prints nothing and allows only the local client origin |
| PageCommon.Classify | frontend/src/pages/QuestionDetail.tsx:88-98 | every page's catch block stores an object as it is, a string as a message, and anything else as the page's fallback; it never stores "no error" |
| PageCommon.ErrorInstanceTakesObjectBranch | frontend/src/pages/QuestionDetail.tsx:90-93 | an `Error` passes the object test, so it is stored as an object and the box shows its message; the `err.message` branch is dead |
| PageCommon.FallbackShownIff | frontend/src/pages/QuestionList.tsx:25-39 | the fallback text is shown for exactly the values that are neither objects nor strings, apart from values that carry the same text |
| PageCommon.AfterUpdate | frontend/src/pages/QuestionModify.tsx:58-63 | after an update, go to the question's page when the route names one, else to the list |
| PageCommon.SingleFlight | frontend/src/pages/UserCreate.tsx:38-74 | for any controller whose every step keeps to one request in flight, a run of any length sends at most one request more than the response events it receives, counting late responses the controller ignores |
| UserCreatePage.SetField | frontend/src/pages/UserCreate.tsx:27-33 | the changed input's field takes the new value and the others keep theirs |
| UserCreatePage.Validate | frontend/src/pages/UserCreate.tsx:40-50 | a form passes exactly when the passwords match and the first is at least 4 UTF-16 units long; a mismatch is reported before the length |
| UserCreatePage.Step | frontend/src/pages/UserCreate.tsx:35-75 | only a field edit changes the form, and it leaves the error and the submission alone; at most one effect per event; a request goes out exactly for a submit while idle with a valid form, and carries the whole form with the error cleared; an invalid form only sets its message; navigation to the login page with the confirmation happens exactly on success of the request in flight; a busy submit and a late response change nothing; the error changes only at a submit or a failure, which stores the classified error; the submission flag flips exactly when a request starts or its response arrives |
| UserCreatePage.RequestOnlyWhenValid | frontend/src/pages/UserCreate.tsx:38-56 | a registration request goes out only from an idle page with matching passwords of length at least 4, and carries the form unchanged |
| UserCreatePage.MismatchReportedFirst | frontend/src/pages/UserCreate.tsx:41-50 | when both checks fail, the box shows the mismatch message |
| UserCreatePage.FlaggedConfirmationRefused | frontend/src/pages/UserCreate.tsx:131-134 | a confirmation flagged invalid is also refused on submit |
| UserCreatePage.ChangeTouchesOneField | frontend/src/pages/UserCreate.tsx:27-33 | editing one input leaves the other fields unchanged |
| UserCreatePage.NeverTwoRequestsInFlight | frontend/src/pages/UserCreate.tsx:38-74 | from the initial page, registration requests never exceed responses plus one |
| UserLoginPage.SetField | frontend/src/pages/UserLogin.tsx:28-34 | the changed input's field takes the new value and the other keeps its value |
| UserLoginPage.Step | frontend/src/pages/UserLogin.tsx:36-70 | only an edit changes the form; a request exactly for a submit with none in flight, with the form's credentials and the error cleared; a response with nothing in flight changes nothing; the session is stored and then home shown exactly on a success; the error changes only when a request starts or fails |
| UserLoginPage.LoginOnlyOnSuccess | frontend/src/pages/UserLogin.tsx:45-56 | the store's login is called only for a successful response, once, first, with that response's user and token, and is followed by the navigation home |
| UserLoginPage.FailureKeepsSession | frontend/src/pages/UserLogin.tsx:57-69 | a failed login never calls the store's login, shows the classified error and ends the submission |
| UserLoginPage.NeverTwoRequestsInFlight | frontend/src/pages/UserLogin.tsx:39-69 | from the initial page, login requests never exceed responses plus one |
| QuestionListPage.Step | frontend/src/pages/QuestionList.tsx:17-46 | the fetch is asked for exactly on mount, and the page is loading afterwards exactly then; the list changes only on a successful response, which it then equals; the error changes only on mount, which clears it, or on a failure, which stores the classified error |
| QuestionListPage.Preview | frontend/src/pages/QuestionList.tsx:89-93 | empty content shows no preview; content of at most 50 UTF-16 units is shown whole; longer content shows its first 50 units and "..."; a preview never exceeds 53 units |
| QuestionListPage.PreviewIsPrefix | frontend/src/pages/QuestionList.tsx:91-93 | a preview is the content's units, or their first 50 followed by three dots |
| QuestionListPage.PreviewOfBmpText | frontend/src/pages/QuestionList.tsx:91-93 | for text without astral characters, the preview is the text, or its first 50 characters followed by "..." |
| QuestionListPage.PreviewMaySplitPair | frontend/src/pages/QuestionList.tsx:92 | the cut counts code units, so it can keep half of a surrogate pair |
| QuestionListPage.Rows | frontend/src/pages/QuestionList.tsx:80-95 | one row per question, in order; row i is numbered i + 1 and shows its question's subject and preview |
| QuestionListPage.RowLinkNamesQuestion | frontend/src/pages/QuestionList.tsx:85 | a row's link is `/question/` followed by an id that reads back as the question's id, for every safe integer id |
| QuestionListPage.Render | frontend/src/pages/QuestionList.tsx:48-82 | spinner exactly while loading; after that, an error box exactly for a truthy error, in place of the table; the placeholder exactly for an empty list without error; otherwise one row per question |
| QuestionListPage.SilentErrorHidesTable | frontend/src/pages/QuestionList.tsx:50-52 | an error object with nothing to show still replaces the table, with an empty box |
| QuestionListPage.FetchOutcomeRendered | frontend/src/pages/QuestionList.tsx:17-82 | after the fetch, a success shows its rows or the placeholder; a failure shows an error box unless the thrown value was the empty string |
| QuestionDetailPage.ListUrl | frontend/src/pages/QuestionDetail.tsx:25-27 | the back link is the list path with a page query |
| QuestionDetailPage.ListUrlReadsBack | frontend/src/pages/QuestionDetail.tsx:25-27 | the back link has exactly a page and a size parameter, which read back as the values passed (safe integers), or as 0 and 10 when none was passed |
| QuestionDetailPage.ListUrlDefaults | frontend/src/pages/QuestionDetail.tsx:25-27 | without router state, the back link is `/question/list?page=0&size=10` |
| QuestionDetailPage.Step | frontend/src/pages/QuestionDetail.tsx:35-102 | a missing id sets its message and ends loading without a fetch; otherwise mounting fetches the parsed id; posting does nothing without an id, with blank content or while in flight, and otherwise sends the content; a failure ends the submission with the classified error |
| QuestionDetailPage.MissingIdStopsLoading | frontend/src/pages/QuestionDetail.tsx:37-41 | a missing route id shows "질문 ID가 없습니다." and ends loading with no request |
| QuestionDetailPage.PostGuard | frontend/src/pages/QuestionDetail.tsx:73-80 | an answer is posted exactly when the route has an id, the content is not blank and nothing is in flight, and it carries the content as typed |
| QuestionDetailPage.ContentClearedOnlyAfterPost | frontend/src/pages/QuestionDetail.tsx:80-89 | the content changes only by editing, by the reset button, or when the post has resolved |
| QuestionDetailPage.FailureKeepsContent | frontend/src/pages/QuestionDetail.tsx:88-101 | a failure keeps the typed content and ends the submission |
| QuestionDetailPage.PostThenRefetch | frontend/src/pages/QuestionDetail.tsx:75-101 | a resolved post clears the content and refetches the same id; the submission ends when the fresh question arrives and replaces the old one |
| QuestionDetailPage.AnswerCount | frontend/src/pages/QuestionDetail.tsx:156 | the answer count is the number of answers, or 0 when the field is absent |
| QuestionDetailPage.NoAnswersIffZero | frontend/src/pages/QuestionDetail.tsx:156-159 | the "no answers yet" block appears exactly when the count is 0 |
| QuestionDetailPage.ButtonsMatchGuard | frontend/src/pages/QuestionDetail.tsx:216-231 | for a logged-in user, a click the disabled rule blocks is also refused by the handler, and an enabled click posts when the route has an id |
| QuestionDetailPage.Render | frontend/src/pages/QuestionDetail.tsx:104-195 | spinner exactly while loading; then "not found" exactly without a question; both later views carry the back link, and the question view shows the answer count |
| QuestionDetailPage.MissingIdRendersNotFound | frontend/src/pages/QuestionDetail.tsx:37-41 | a missing route id ends on the "not found" view with the back link |
| QuestionDetailPage.NeverTwoPostsInFlight | frontend/src/pages/QuestionDetail.tsx:73-101 | answer posts never exceed completed submissions plus one |
| QuestionModifyPage.Step | frontend/src/pages/QuestionModify.tsx:22-115 | the route id never changes and at most one effect goes out; the fetch exactly on mounting with a truthy id; the update exactly for a submit the buttons allow, with the target id and both fields; the navigation exactly when an update in flight succeeds; late responses change nothing; reset empties both fields |
| QuestionModifyPage.SubmitGuard | frontend/src/pages/QuestionModify.tsx:48-122 | an update is sent exactly when subject and content are non-blank and nothing is in flight, which is exactly when the buttons are enabled |
| QuestionModifyPage.TargetAndDestination | frontend/src/pages/QuestionModify.tsx:55-63 | a route naming a safe integer n updates n and returns to its page; without an id the update goes to 0 and then the list; an empty id sends NaN |
| QuestionModifyPage.FailureShown | frontend/src/pages/QuestionModify.tsx:64-76 | a failure ends the submission with an error; a value neither object nor string shows "질문 수정에 실패했습니다." |
| QuestionModifyPage.NeverTwoUpdatesInFlight | frontend/src/pages/QuestionModify.tsx:48-76 | updates sent never exceed responses plus one |
| AnswerModifyPage.Step | frontend/src/pages/AnswerModify.tsx:24-106 | neither route id changes and at most one effect goes out; the fetch exactly on mounting with a truthy answer id; the update exactly for a submit the buttons allow, with the target id and the content; the navigation by the question id exactly when an update in flight succeeds; late responses change nothing; reset empties the content |
| AnswerModifyPage.SubmitGuard | frontend/src/pages/AnswerModify.tsx:49-113 | an update is sent exactly when the content is non-blank and nothing is in flight, which is exactly when the buttons are enabled |
| AnswerModifyPage.UpdateTarget | frontend/src/pages/AnswerModify.tsx:56 | the update goes to the answer the route names, for a safe integer id, or to 0 without one |
| AnswerModifyPage.DestinationFromQuestionId | frontend/src/pages/AnswerModify.tsx:58-63 | after success the page goes to the question the route names, whatever the answer id, or to the list without one |
| AnswerModifyPage.FailureShown | frontend/src/pages/AnswerModify.tsx:65-77 | a failure ends the submission, keeps the content and shows an error; a value neither object nor string shows "답변 수정에 실패했습니다." |
| AnswerModifyPage.NeverTwoUpdatesInFlight | frontend/src/pages/AnswerModify.tsx:49-77 | updates sent never exceed responses plus one |
| UserCrud.CheckpwIffSameKey | domain/user/user_crud.py:17-28 | the assumed bcrypt contract: a key checks against a hash exactly when it made the hash (true of bcrypt for keys without a 0 byte) |
| UserCrud.PasswordKey | domain/user/user_crud.py:12-14 | the key is the UTF-8 encoding when it fits in 72 bytes, else its first 72 bytes |
| UserCrud.HashPassword | domain/user/user_crud.py:7-18 | the hash is made from at most 72 key bytes with the given salt |
| UserCrud.VerifyPassword | domain/user/user_crud.py:20-28 | a password checks exactly when hashing it under the stored hash's salt reproduces the hash, that is, when its 72-byte key made the hash (see also VerifyOwnHash and ShortPasswordExact) |
| UserCrud.VerifyOwnHash | domain/user/user_crud.py:7-28 | a password verifies against its own hash, whatever the salt |
| UserCrud.SamePrefixSameTreatment | domain/user/user_crud.py:7-28 | passwords that agree on their first 72 bytes hash alike and each verifies against the other's hash |
| UserCrud.LongPasswordSuffixIgnored | domain/user/user_crud.py:12-26 | anything appended to a password of 72 bytes or more is ignored |
| UserCrud.ShortPasswordExact | domain/user/user_crud.py:7-28 | a password under 72 bytes is accepted by its hash and by no other password (for passwords without U+0000) |
| UserCrud.GetExistingUser | domain/user/user_crud.py:36-37 | a user is found exactly when some user has the username or the email, and the one found matches one of them |
| UserCrud.GetUser | domain/user/user_crud.py:39-40 | a user is found exactly when some user has the username, and the email plays no part |
| UserCrud.CreateUser | domain/user/user_crud.py:30-34 | exactly one row is appended, with the username, the email and a hash that `password1` verifies against |
| UserCrud.FirstMatch | domain/user/user_crud.py:37-40 | `.first()` returns a matching row, modelled as the earliest in table order, and nothing exactly when no row matches |
| UserRouter.LoadJwtSettings | domain/user/user_router.py:18-24 | import succeeds exactly when the expiry is something `int()` accepts (at most 4300 digits) and the secret key is set and non-empty; the settings are then that integer, the key, and `ALGORITHM` (default HS256) |
| UserRouter.JwtSettingsDefaults | domain/user/user_router.py:18-20 | with only a secret key set, tokens last 1440 minutes and use HS256 |
| UserRouter.JwtSettingsRefused | domain/user/user_router.py:18-24 | a missing secret key, or a non-integer expiry such as "1.5", stops the import |
| UserRouter.Register | domain/user/user_router.py:30-35 | 409 with "이미 존재하는 사용자입니다." exactly when a user shares the username or the email, with the table unchanged; otherwise 204 with exactly one row appended |
| UserRouter.IssueToken | domain/user/user_router.py:47-57 | a token exactly when the expiry instant is a `datetime`, the algorithm is HS256, HS384 or HS512, and the secret holds none of the public-key markers python-jose's HMAC key refuses, otherwise the 500 response; the token has type "bearer", the username, and claims the username and an expiry the configured minutes after now |
| UserRouter.ExpiryRange | domain/user/user_router.py:49-51 | with a secret the HMAC key accepts, the default day-long expiry issues at any instant up to a day before year 10000; 4.3 billion minutes overflows from the epoch on, whatever the secret |
| UserRouter.SshKeySecretRefused | domain/user/user_router.py:51 | a secret containing "ssh-rsa" anywhere makes every correct login a 500 |
| UserRouter.UnsupportedAlgorithm | domain/user/user_router.py:51 | an algorithm outside the HMAC family makes every correct login a 500 |
| UserRouter.Login | domain/user/user_router.py:37-57 | the one 401 response with the Bearer challenge exactly when the username is unknown or its first row's hash rejects the password; otherwise a token in that user's name when one can be issued, else the 500 response |
| UserRouter.LoginOAuth2 | domain/user/user_router.py:60-80 | the form login: the 401 response exactly for bad credentials, a token in the user's name exactly when they are good and a token can be issued, else the 500 response (the same answers as the JSON login, by OAuth2SameAsJson) |
| UserRouter.OAuth2SameAsJson | domain/user/user_router.py:60-80 | the form login answers exactly as the JSON login does |
| UserRouter.NoUsernameOracle | domain/user/user_router.py:39-45 | an unknown user and a wrong password get the very same response content |
| UserRouter.TokenContents | domain/user/user_router.py:47-57 | a successful login returns a bearer token signed with the settings, claiming the username and now plus 60 times the expiry minutes |
| UserRouter.RegisterKeepsUnique | domain/user/user_router.py:30-35 | registration keeps usernames and emails unique across the table |
| UserRouter.RegisterThenLogin | domain/user/user_router.py:30-57 | whoever has just registered can log in with `password1` and gets a token in their own name |
| Text.ParseIntOfDecimal | frontend/src/pages/QuestionDetail.tsx:47 | `parseInt` reads back every safe integer written in decimal |
| Text.ParseIntOfZero | frontend/src/pages/QuestionModify.tsx:54 | the default id "0" reads as 0 |
| Text.ParseIntIgnoresSuffix | frontend/src/pages/QuestionDetail.tsx:47 | `parseInt` of a safe integer's numeral stops at the first character that is not a decimal digit (so "12px" is 12), unless a lone 0 is followed by `x` or `X` |
| Text.PyIntOfDecimal | domain/user/user_router.py:18 | `int` reads back every integer written in decimal with at most 4300 digits |
| Text.PyIntRejectsSuffix | domain/user/user_router.py:18 | unlike `parseInt`, `int` refuses a numeral followed by anything other than whitespace |
| Text.PyIntRejectsLongNumeral | domain/user/user_router.py:18 | `int` refuses a numeral of more than 4300 digits, signed or not |
| Text.SplitJoin | config.py:29 | splitting pieces joined by a separator they do not contain gives the pieces back |
| Text.TrimShape | config.py:28 | stripping removes only whitespace, from both ends, and leaves no whitespace at either end |
| Unicode.Utf8Injective | domain/user/user_crud.py:12 | distinct strings have distinct UTF-8 encodings |
| Unicode.Utf16Append | frontend/src/pages/QuestionList.tsx:91 | the UTF-16 units of a concatenation are those of the parts, in order |

## Left out

- The HTTP client (`lib/api`) is not part of this model. Every API call is an
  effect token, and its outcome is an event.
- What `loginUser` returns is not modelled. The backend's login response carries
  `username`, but the login page reads a `user` object from it.
- stores/authStore is not part of this model. The login page's call to its
  `login` is an effect token.
- The timing of React effects and renders is left out, including StrictMode's
  double effects. Each controller processes one event at a time.
- Responses that arrive for a submission not in flight are ignored.
- Browser form validation is left out. That is `required`, `minLength`, and the
  disabled inputs, which are modelled as predicates only. It can stop a submit
  before the handler runs.
- Env.LoadConfig: `port` goes through `Number()` and `parseNumber`. This is
  floating-point and NaN behaviour, and it is not modelled.
- Settings.Load: `PORT` goes through `int()` and is not modelled, so neither is
  the import failure a non-integer `PORT` causes.
- Text.LowerChar: letter case is folded for ASCII only. No character outside
  ASCII lower-cases to a letter of "true", so the comparisons with "true" are
  exact.
- Text.PyInt: underscores between digits and non-ASCII digits, both of which
  Python's `int()` accepts, are not modelled.
- Text.ParseInt: `parseInt` of "-0" gives -0. That is modelled as 0.
- Text.ParseInt: the result is an exact integer, not a JavaScript number. Above
  2^53 - 1 a number rounds (9007199254740993 reads as 9007199254740992), from
  10^21 on `String` writes it with an exponent ("1e+21"), and above about
  1.8 × 10^308 it is Infinity. The read-back lemmas are therefore stated for safe
  integers only (QuestionListPage.RowLinkNamesQuestion,
  QuestionDetailPage.ListUrlReadsBack, QuestionModifyPage.TargetAndDestination,
  AnswerModifyPage.UpdateTarget, Text.ParseIntOfDecimal, Text.ParseIntIgnoresSuffix).
- Text.PyInt: the 4300-digit limit is CPython's default; a process that changes
  it with `sys.set_int_max_str_digits` or `PYTHONINTMAXSTRDIGITS` is not modelled.
- AuthContext.RestoreAction: a saved record that is JSON but not of the session
  shape, such as `null`, is not modelled. Only the session itself or unparsable
  text is.
- UserCrud.Checkpw: the bcrypt hash is stored as text and encoded again before
  checking. This round-trip is the identity on bcrypt's ASCII output and is not
  modelled. A stored value that is not a bcrypt hash, which makes `checkpw`
  raise, is not modelled either.
- UserCrud.PasswordKey: a Dafny string holds Unicode scalar values only, so a
  password containing a lone surrogate (which a JSON `"\ud800"` escape can
  produce) is not modelled. For such a password `encode('utf-8')` raises, so
  registration answers 500, and so does the login of a known user, while an
  unknown user still gets 401.
- Unicode.Utf16: JavaScript strings may hold lone UTF-16 surrogates; the model's
  strings cannot, so `JsLength` and the question preview only ever see
  well-formed text.
- The `UserCreate` schema's own validation is not part of this model
  (domain/user/user_schema.py).
- `datetime.utcnow()` is a parameter, in whole seconds.
- UserRouter.IssueToken: a secret key holding an RSA or EC key in PEM form would
  let `jwt.encode` sign with RS, ES or PS algorithms too. The model treats every
  algorithm outside HS256, HS384 and HS512 as failing, as it does for a
  plain-text secret.
- UserRouter.IssueToken: the refused secrets are those of python-jose 3.3, which
  looks for "-----BEGIN PUBLIC KEY-----", "-----BEGIN RSA PUBLIC KEY-----",
  "-----BEGIN CERTIFICATE-----" and "ssh-rsa" in the secret. Other versions test
  the PEM and SSH shapes differently; those tests are not modelled.
- UserRouter.ExpiryRange: the token is promised only for a secret without those
  markers; with one, every correct login answers 500 (UserRouter.SshKeySecretRefused).
- UserCrud.CheckpwIffSameKey: this is the property of bcrypt the model assumes,
  and it holds only for keys without a 0 byte, that is, passwords without U+0000.
  Such passwords are not modelled. pyca/bcrypt 4 ends the key with a 0 byte and
  repeats it to fill 72 bytes, so a password of 71 bytes p and p + U+0000 hash
  alike, and so do "ab" and "ab" + U+0000 + "ab". pyca/bcrypt 3 raises
  `ValueError` on a 0 byte, so registration answers 500, and so does the login of
  a known user.
- UserCrud.ShortPasswordExact: it is stated for all strings but is faithful only
  for passwords p and q without U+0000, for the reason above.
- Questions.Question: `id` is an integer. `isValidQuestion` accepts any JSON
  number, so a fractional id such as 1.5 would pass and render the link
  `/question/1.5`; such records are not modelled.
- UserRouter.NoUsernameOracle: only the response content is the same. bcrypt
  runs only for a known username, so the response time can still tell the two
  cases apart, and time is not modelled.
- UserCrud.FirstMatch: the queries have no `order_by`, so the database may return
  any matching row. The model takes the first in table order. The difference
  shows only when several rows match, and by UserRouter.RegisterKeepsUnique
  registration never creates such rows.
- The database is a sequence of rows. Commits, sessions and concurrent requests
  are not modelled.
- domain/question (router and crud), database.py and main.py are not part of
  this model. They are database queries and framework wiring.
- Also not part of this model: locale.ts (date formatting), Navigation.tsx,
  App.tsx, Home.tsx and the `types` files, which only define record shapes.
- The rendered markup, styles, and the line-by-line split of question and answer
  bodies are not modelled.

=== FILE: answer_modify_page.dfy ===
/** The answer edit page (frontend/src/pages/AnswerModify.tsx): loading the answer
    into the form, the guarded update, and the return to the question. */
module AnswerModifyPage {
  import opened Wrappers
  import opened Text
  import opened ErrorView
  import opened PageCommon

  const LoadFallback := "답변 정보를 불러오는데 실패했습니다."
  const UpdateFallback := "답변 수정에 실패했습니다."

  /** The route names both the answer and the question it belongs to. */
  datatype Page = Page(
    answerId: Option<string>,
    questionId: Option<string>,
    content: string,
    error: ApiError,
    isSubmitting: bool)

  datatype Event =
    | Mount                       // the effect runs for the answer id
    | Loaded(content: string)     // the answer fetch resolved
    | LoadFailed(c: Caught)       // the answer fetch rejected
    | EditContent(value: string)
    | Reset                       // the reset button
    | SubmitClicked
    | Updated                     // `putAnswer` resolved
    | UpdateFailed(c: Caught)     // `putAnswer` rejected

  /** `None` as an id stands for NaN. */
  datatype Effect =
    | FetchAnswer(id: Option<int>)
    | PutAnswer(id: Option<int>, content: string)
    | Navigate(path: string)

  function Initial(answerId: Option<string>, questionId: Option<string>): Page {
    Page(answerId, questionId, "", NoError, false)
  }

  /** The rule that disables the reset and submit buttons, which the submit handler
      also applies as its guard. */
  predicate ButtonsDisabled(p: Page) {
    IsBlank(p.content) || p.isSubmitting
  }

  /** The id the update is sent to: the answer id, or "0" when there is none. */
  function TargetId(answerId: Option<string>): Option<int> {
    ParseInt(answerId.GetOr("0"))
  }

  /** One event: neither route id changes and at most one effect goes out; the
      fetch exactly on mounting with a truthy answer id, the update exactly for a
      submit the buttons allow (carrying the target id and the content), the
      navigation, by the question id, exactly when an update in flight succeeds; a
      response with nothing in flight changes nothing; the content changes only on
      loading, editing or reset, where reset empties it. */
  function Step(p: Page, e: Event): (r: (Page, seq<Effect>))
    ensures r.0.answerId == p.answerId && r.0.questionId == p.questionId && |r.1| <= 1
    ensures (r.1 != [] && r.1[0].FetchAnswer?) <==> e.Mount? && Truthy(p.answerId)
    ensures (r.1 != [] && r.1[0].PutAnswer?) <==> e.SubmitClicked? && !ButtonsDisabled(p)
    ensures r.1 != [] && r.1[0].PutAnswer? ==>
      r.1[0] == PutAnswer(TargetId(p.answerId), p.content) && r.0.isSubmitting && r.0.error == NoError
    ensures (r.1 != [] && r.1[0].Navigate?) <==> e.Updated? && p.isSubmitting
    ensures r.1 != [] && r.1[0].Navigate? ==> r.1[0].path == AfterUpdate(p.questionId) && !r.0.isSubmitting
    ensures (e.Updated? || e.UpdateFailed?) && !p.isSubmitting ==> r == (p, [])
    ensures r.0.content != p.content ==> e.Loaded? || e.EditContent? || e.Reset?
    ensures e.Reset? ==> r.0.content == ""
    ensures r.0.isSubmitting != p.isSubmitting ==> e.SubmitClicked? || e.Updated? || e.UpdateFailed?
  {
    match e
    case Mount =>
      if Truthy(p.answerId) then (p, [FetchAnswer(ParseInt(p.answerId.value))]) else (p, [])
    case Loaded(content) => (p.(content := content), [])
    case LoadFailed(c) => (p.(error := Classify(c, LoadFallback)), [])
    case EditContent(value) => (p.(content := value), [])
    case Reset => (p.(content := ""), [])
    case SubmitClicked =>
      if ButtonsDisabled(p) then (p, [])
      else (p.(isSubmitting := true, error := NoError), [PutAnswer(TargetId(p.answerId), p.content)])
    case Updated =>
      if !p.isSubmitting then (p, [])
      else (p.(isSubmitting := false), [Navigate(AfterUpdate(p.questionId))])
    case UpdateFailed(c) =>
      if !p.isSubmitting then (p, [])
      else (p.(isSubmitting := false, error := Classify(c, UpdateFallback)), [])
  }

  /** An update is sent exactly when the content is not blank and nothing is
      outstanding, that is exactly when the buttons are enabled. */
  lemma SubmitGuard(p: Page)
    ensures Step(p, SubmitClicked).1 != [] <==> !IsBlank(p.content) && !p.isSubmitting
    ensures ButtonsDisabled(p) <==> Step(p, SubmitClicked).1 == []
  {
  }

  /** The update goes to the answer the route names (a safe integer), or to answer 0
      without one. */
  lemma UpdateTarget(p: Page, n: int)
    requires IsSafeInteger(n)
    ensures p.answerId == Some(IntToString(n)) ==> TargetId(p.answerId) == Some(n)
    ensures p.answerId.None? ==> TargetId(p.answerId) == Some(0)
  {
    if p.answerId == Some(IntToString(n)) {
      ParseIntOfDecimal(n);
    } else if p.answerId.None? {
      ParseIntOfZero();
    }
  }

  /** After a successful update the page returns to the question the route names,
      whatever the answer id; without a question id it returns to the list. */
  lemma DestinationFromQuestionId(p: Page, answerId: Option<string>)
    requires p.isSubmitting
    ensures Step(p, Updated).1 == Step(p.(answerId := answerId), Updated).1
    ensures Truthy(p.questionId) ==> Step(p, Updated).1 == [Navigate("/question/" + p.questionId.value)]
    ensures !Truthy(p.questionId) ==> Step(p, Updated).1 == [Navigate("/question/list")]
  {
  }

  /** A failed update ends the submission, keeps the content and shows an error; a
      thrown value that is neither an object nor a string shows the page's own message. */
  lemma FailureShown(p: Page, c: Caught)
    requires p.isSubmitting
    ensures var q := Step(p, UpdateFailed(c)).0;
      !q.isSubmitting && q.content == p.content && !q.error.NoError?
    ensures c.CaughtNull? || c.CaughtUndefined? || c.CaughtOther? ==>
      Lines(Step(p, UpdateFailed(c)).0.error) == [Text(UpdateFallback)]
  {
  }

  predicate IsRequest(f: Effect) {
    f.PutAnswer?
  }

  predicate IsResponse(e: Event) {
    e.Updated? || e.UpdateFailed?
  }

  predicate Busy(p: Page) {
    p.isSubmitting
  }

  lemma StepSingleFlight()
    ensures SingleFlightStep(Step, Busy, IsRequest, IsResponse)
  {
    forall p, e
      ensures CountWhere(Step(p, e).1, IsRequest) + B(Busy(p))
              <= B(Busy(Step(p, e).0)) + B(IsResponse(e))
    {
    }
  }

  /** Updates sent never outnumber their responses by more than one. */
  lemma NeverTwoUpdatesInFlight(answerId: Option<string>, questionId: Option<string>, events: seq<Event>)
    ensures CountWhere(Run(Step, Initial(answerId, questionId), events).1, IsRequest)
            <= CountWhere(events, IsResponse) + 1
  {
    StepSingleFlight();
    SingleFlight(Step, Busy, IsRequest, IsResponse, Initial(answerId, questionId), events);
  }
}

=== FILE: auth_context.dfy ===
/** The session store (frontend/src/contexts/AuthContext.tsx): a reducer over
    the session state with LOGIN, LOGOUT and RESTORE_SESSION actions, mirrored to
    one local-storage record under the key "auth". */
module AuthContext {
  import opened Wrappers

  datatype User = User(username: string, email: string)

  /** The session: the signed-in user and bearer token, and the derived flag. */
  datatype AuthState = AuthState(user: Option<User>, token: Option<string>, isAuthenticated: bool)

  datatype Action =
    | Login(loginUser: User, loginToken: string)
    | Logout
    | RestoreSession(payload: AuthState)
    | Unknown   // any other action type

  /** The anonymous session the provider starts in. */
  const InitialState := AuthState(None, None, false)

  /** The session invariant: authenticated exactly when a user is present, exactly
      when a token is present. */
  predicate Consistent(s: AuthState) {
    (s.isAuthenticated <==> s.user.Some?) && (s.user.Some? <==> s.token.Some?)
  }

  /** `authReducer`. */
  function Reduce(state: AuthState, action: Action): (r: AuthState)
    ensures action.Login? ==> r.user == Some(action.loginUser)
                              && r.token == Some(action.loginToken) && r.isAuthenticated
    ensures action.Logout? ==> r == InitialState
    ensures action.RestoreSession? ==> r == action.payload
    ensures action.Unknown? ==> r == state
  {
    match action
    case Login(u, t) => AuthState(Some(u), Some(t), true)
    case Logout => AuthState(None, None, false)
    case RestoreSession(p) => p
    case Unknown => state
  }

  lemma InitialStateConsistent()
    ensures Consistent(InitialState)
  {
  }

  /** LOGIN and LOGOUT establish the invariant from any state, consistent or not;
      RESTORE_SESSION passes on whatever the payload holds. */
  lemma LoginLogoutEstablishConsistency(state: AuthState, action: Action)
    requires action.Login? || action.Logout?
    ensures Consistent(Reduce(state, action))
  {
  }

  /** RESTORE_SESSION does not enforce the invariant: an inconsistent payload is
      adopted as it is. */
  lemma RestoreMayBreakConsistency()
    ensures var bad := AuthState(None, Some("t"), true);
      !Consistent(Reduce(InitialState, RestoreSession(bad)))
  {
  }

  /** A second login overwrites the first; the earlier state plays no part. */
  lemma LoginOverwrites(s1: AuthState, s2: AuthState, u: User, t: string)
    ensures Reduce(s1, Login(u, t)) == Reduce(s2, Login(u, t))
  {
  }

  /** Logging out twice is the same as logging out once. */
  lemma LogoutIdempotent(state: AuthState)
    ensures Reduce(Reduce(state, Logout), Logout) == Reduce(state, Logout)
  {
  }

  // ---------------------------------------------------------------------------
  // The provider: reducer state plus the local-storage mirror
  // ---------------------------------------------------------------------------

  /** What local storage holds under "auth": a record that parses as JSON
      (modelled by the session it decodes to) or text that does not. */
  datatype Record = Saved(state: AuthState) | Unparsable

  /** The writes the provider makes to local storage. */
  datatype StorageOp = SetItem(state: AuthState) | RemoveItem

  datatype Provider = Provider(state: AuthState, storage: Option<Record>)

  function ApplyOp(storage: Option<Record>, op: StorageOp): Option<Record> {
    match op
    case SetItem(s) => Some(Saved(s))
    case RemoveItem => None
  }

  function ApplyOps(storage: Option<Record>, ops: seq<StorageOp>): Option<Record>
    decreases |ops|
  {
    if ops == [] then storage else ApplyOps(ApplyOp(storage, ops[0]), ops[1..])
  }

  /** Whatever came before, storage ends with the last value written. */
  lemma {:induction false} LastWriteWins(storage: Option<Record>, ops: seq<StorageOp>)
    requires |ops| > 0 && ops[|ops| - 1].SetItem?
    ensures ApplyOps(storage, ops) == Some(Saved(ops[|ops| - 1].state))
    decreases |ops|
  {
    if |ops| > 1 {
      LastWriteWins(ApplyOp(storage, ops[0]), ops[1..]);
    }
  }

  /** The action the restore effect dispatches on mount: RESTORE_SESSION with the
      saved record when one exists and parses; nothing otherwise (a parse failure
      is only logged). */
  function RestoreAction(storage: Option<Record>): (r: Option<Action>)
    ensures r.Some? <==> storage.Some? && storage.value.Saved?
    ensures r.Some? ==> r.value == RestoreSession(storage.value.state)
  {
    match storage
    case Some(Saved(s)) => Some(RestoreSession(s))
    case _ => None
  }

  /** The storage writes of the first mount, in order: the persist effect of the
      first render writes the initial state, then the re-render caused by a
      restore writes the restored state. */
  function MountOps(storage: Option<Record>): seq<StorageOp> {
    match RestoreAction(storage)
    case Some(a) => [SetItem(InitialState), SetItem(Reduce(InitialState, a))]
    case None => [SetItem(InitialState)]
  }

  /** Mounting the provider over whatever local storage holds. */
  function Mount(storage: Option<Record>): (p: Provider)
    ensures storage.Some? && storage.value.Saved? ==> p.state == storage.value.state
    ensures !(storage.Some? && storage.value.Saved?) ==> p.state == InitialState
    ensures p.storage == Some(Saved(p.state))
  {
    var state := match RestoreAction(storage)
                 case Some(a) => Reduce(InitialState, a)
                 case None => InitialState;
    LastWriteWins(storage, MountOps(storage));
    Provider(state, ApplyOps(storage, MountOps(storage)))
  }

  /** The storage writes of `login(user, token)`: the state change re-runs the persist effect. */
  function LoginOps(u: User, t: string): seq<StorageOp> {
    [SetItem(Reduce(InitialState, Login(u, t)))]
  }

  /** The storage writes of `logout()`: the key is removed right after dispatching,
      then the re-render's persist effect writes the anonymous state back. */
  function LogoutOps(): seq<StorageOp> {
    [RemoveItem, SetItem(Reduce(InitialState, Logout))]
  }

  function ProviderLogin(p: Provider, u: User, t: string): (q: Provider)
    ensures q.state == AuthState(Some(u), Some(t), true) && Consistent(q.state)
    ensures q.storage == Some(Saved(q.state))
  {
    LastWriteWins(p.storage, LoginOps(u, t));
    Provider(Reduce(p.state, Login(u, t)), ApplyOps(p.storage, LoginOps(u, t)))
  }

  function ProviderLogout(p: Provider): (q: Provider)
    ensures q.state == InitialState
    ensures q.storage == Some(Saved(InitialState))
  {
    LastWriteWins(p.storage, LogoutOps());
    Provider(Reduce(p.state, Logout), ApplyOps(p.storage, LogoutOps()))
  }

  /** Logout does remove the key, but only for an instant: the record is absent
      after the first write and present again after the second. */
  lemma LogoutKeyReappears(p: Provider)
    ensures ApplyOp(p.storage, LogoutOps()[0]) == None
    ensures ProviderLogout(p).storage.Some?
  {
  }

  /** The mirror round-trips: mounting a fresh provider over the storage a login
      left behind restores exactly the logged-in session. */
  lemma LoginSurvivesReload(p: Provider, u: User, t: string)
    ensures Mount(ProviderLogin(p, u, t).storage).state == ProviderLogin(p, u, t).state
  {
  }

  /** After any sequence of provider operations the storage mirrors the state. */
  datatype Op = DoLogin(u: User, t: string) | DoLogout

  function Run(p: Provider, ops: seq<Op>): Provider
    decreases |ops|
  {
    if ops == [] then p
    else
      var q := match ops[0]
               case DoLogin(u, t) => ProviderLogin(p, u, t)
               case DoLogout => ProviderLogout(p);
      Run(q, ops[1..])
  }

  /** From a mount, the stored record always holds the current state, and the
      state is consistent as long as the restored record was. */
  lemma {:induction false} MirrorInvariant(p: Provider, ops: seq<Op>)
    requires p.storage == Some(Saved(p.state))
    ensures Run(p, ops).storage == Some(Saved(Run(p, ops).state))
    ensures Consistent(p.state) ==> Consistent(Run(p, ops).state)
    ensures ops != [] ==> Consistent(Run(p, ops).state)
    decreases |ops|
  {
    if ops != [] {
      var q := match ops[0]
               case DoLogin(u, t) => ProviderLogin(p, u, t)
               case DoLogout => ProviderLogout(p);
      MirrorInvariant(q, ops[1..]);
    }
  }
}

=== FILE: env.dfy ===
/** The frontend configuration (frontend/src/config/env.ts): variables read from
    the build environment, the API URL builder and the environment predicates. */
module Env {
  import opened Wrappers
  import opened Text

  /** The build-time variables (`import.meta.env`); an absent key is `undefined`. */
  type Vars = map<string, string>

  function Lookup(vars: Vars, key: string): Option<string> {
    if key in vars then Some(vars[key]) else None
  }

  /** `AppConfig`, without `port` (which goes through `Number()`). */
  datatype AppConfig = AppConfig(
    nodeEnv: string,
    apiBaseUrl: string,
    debug: bool,
    enableHttps: bool,
    hotReload: bool,
    verboseLogging: bool,
    mockApi: bool,
    enableDevTools: bool)

  /** `parseBoolean`: true exactly for a defined value that lower-cases to "true". */
  function ParseBoolean(value: Option<string>): (r: bool)
    ensures r <==> value.Some? && SpellsIgnoringCase(value.value, "true")
  {
    if value.None? then false
    else
      LowerIsTrue(value.value);
      Lower(value.value) == "true"
  }

  /** `a || b` for a string that may be undefined: the default replaces both
      `undefined` and the empty string. */
  function OrDefault(value: Option<string>, default: string): (r: string)
    ensures value.Some? && value.value != "" ==> r == value.value
    ensures value.None? || value.value == "" ==> r == default
  {
    if value.Some? && value.value != "" then value.value else default
  }

  /** The `config` object built from the environment: a text setting is its
      variable when that is set and not empty, else its default; each toggle is on
      exactly when its variable spells "true" in any letter case. */
  function LoadConfig(vars: Vars): (c: AppConfig)
    ensures c.nodeEnv != "" && c.apiBaseUrl != ""
    ensures "VITE_NODE_ENV" in vars && vars["VITE_NODE_ENV"] != "" ==> c.nodeEnv == vars["VITE_NODE_ENV"]
    ensures "VITE_NODE_ENV" !in vars || vars["VITE_NODE_ENV"] == "" ==> c.nodeEnv == "development"
    ensures "VITE_API_BASE_URL" in vars && vars["VITE_API_BASE_URL"] != "" ==> c.apiBaseUrl == vars["VITE_API_BASE_URL"]
    ensures "VITE_API_BASE_URL" !in vars || vars["VITE_API_BASE_URL"] == "" ==> c.apiBaseUrl == "http://localhost:8000"
    ensures c.debug <==> "VITE_DEBUG" in vars && SpellsIgnoringCase(vars["VITE_DEBUG"], "true")
    ensures c.enableHttps <==> "VITE_ENABLE_HTTPS" in vars && SpellsIgnoringCase(vars["VITE_ENABLE_HTTPS"], "true")
    ensures c.hotReload <==> "VITE_HOT_RELOAD" in vars && SpellsIgnoringCase(vars["VITE_HOT_RELOAD"], "true")
    ensures c.verboseLogging <==> "VITE_VERBOSE_LOGGING" in vars && SpellsIgnoringCase(vars["VITE_VERBOSE_LOGGING"], "true")
    ensures c.mockApi <==> "VITE_MOCK_API" in vars && SpellsIgnoringCase(vars["VITE_MOCK_API"], "true")
    ensures c.enableDevTools <==> "VITE_ENABLE_DEV_TOOLS" in vars && SpellsIgnoringCase(vars["VITE_ENABLE_DEV_TOOLS"], "true")
  {
    AppConfig(
      OrDefault(Lookup(vars, "VITE_NODE_ENV"), "development"),
      OrDefault(Lookup(vars, "VITE_API_BASE_URL"), "http://localhost:8000"),
      ParseBoolean(Lookup(vars, "VITE_DEBUG")),
      ParseBoolean(Lookup(vars, "VITE_ENABLE_HTTPS")),
      ParseBoolean(Lookup(vars, "VITE_HOT_RELOAD")),
      ParseBoolean(Lookup(vars, "VITE_VERBOSE_LOGGING")),
      ParseBoolean(Lookup(vars, "VITE_MOCK_API")),
      ParseBoolean(Lookup(vars, "VITE_ENABLE_DEV_TOOLS")))
  }

  /** With nothing set, the client talks to the local backend in development mode
      with every toggle off. */
  lemma DefaultConfig()
    ensures LoadConfig(map[]) == AppConfig("development", "http://localhost:8000",
                                           false, false, false, false, false, false)
  {
  }

  /** `s.replace(/\/$/, "")`: removes one trailing slash, if any. */
  function DropTrailingSlash(s: string): (r: string)
    ensures s == r || s == r + "/"
    ensures |s| > 0 && s[|s| - 1] == '/' <==> s == r + "/"
  {
    if |s| > 0 && s[|s| - 1] == '/' then s[..|s| - 1] else s
  }

  /** `s.replace(/^\//, "")`: removes one leading slash, if any. */
  function DropLeadingSlash(s: string): (r: string)
    ensures s == r || s == "/" + r
    ensures |s| > 0 && s[0] == '/' <==> s == "/" + r
  {
    if |s| > 0 && s[0] == '/' then s[1..] else s
  }

  /** `createApiUrl`: the base URL and the endpoint joined by one slash, after
      removing at most one slash from each side of the joint. */
  function CreateApiUrl(config: AppConfig, endpoint: string): (url: string)
    ensures var base := DropTrailingSlash(config.apiBaseUrl);
            var path := DropLeadingSlash(endpoint);
            && url == base + "/" + path
            && |url| == |base| + 1 + |path|
            && url[|base|] == '/'
  {
    DropTrailingSlash(config.apiBaseUrl) + "/" + DropLeadingSlash(endpoint)
  }

  /** Without slashes at the joint, the URL is just base, slash, endpoint; with
      one on either side (or both) the result is the same. */
  lemma CreateApiUrlOneSlash(config: AppConfig, base: string, endpoint: string)
    requires base == config.apiBaseUrl
    requires |base| == 0 || base[|base| - 1] != '/'
    requires |endpoint| == 0 || endpoint[0] != '/'
    ensures CreateApiUrl(config, endpoint) == base + "/" + endpoint
    ensures CreateApiUrl(config.(apiBaseUrl := base + "/"), "/" + endpoint) == base + "/" + endpoint
    ensures CreateApiUrl(config.(apiBaseUrl := base + "/"), endpoint) == base + "/" + endpoint
    ensures CreateApiUrl(config, "/" + endpoint) == base + "/" + endpoint
  {
    assert (base + "/")[..|base|] == base;
    assert ("/" + endpoint)[1..] == endpoint;
  }

  /** Only one slash is removed from each side: further slashes survive. */
  lemma CreateApiUrlKeepsExtraSlashes(config: AppConfig)
    requires config.apiBaseUrl == "http://h//"
    ensures CreateApiUrl(config, "//api") == "http://h///api"
  {
  }

  /** `isDevelopment`. */
  predicate IsDevelopment(config: AppConfig) {
    config.nodeEnv == "development"
  }

  /** `isProduction`. */
  predicate IsProduction(config: AppConfig) {
    config.nodeEnv == "production"
  }

  lemma EnvironmentsExclusive(config: AppConfig)
    ensures !(IsDevelopment(config) && IsProduction(config))
  {
  }

  /** Whether `debugLog` writes to the console: only with `debug` set in development. */
  function DebugLogWrites(config: AppConfig): (r: bool)
    ensures r ==> config.debug && !IsProduction(config)
    ensures r <==> config.debug && IsDevelopment(config)
  {
    config.debug && IsDevelopment(config)
  }

  /** Whether the configuration is dumped to the console at start-up. */
  function ConfigDumped(config: AppConfig): (r: bool)
    ensures r <==> config.verboseLogging && IsDevelopment(config)
  {
    IsDevelopment(config) && config.verboseLogging
  }

  /** The node environment follows `VITE_NODE_ENV`, which an empty value leaves at
      its development default; production needs the exact word. */
  lemma EnvironmentFromVars(vars: Vars)
    ensures IsDevelopment(LoadConfig(vars)) <==>
      "VITE_NODE_ENV" !in vars || vars["VITE_NODE_ENV"] == "" || vars["VITE_NODE_ENV"] == "development"
    ensures IsProduction(LoadConfig(vars)) <==> "VITE_NODE_ENV" in vars && vars["VITE_NODE_ENV"] == "production"
  {
  }

  /** Without `VITE_API_BASE_URL` every request goes to the local backend. */
  lemma ApiUrlFromVars(vars: Vars, endpoint: string)
    requires "VITE_API_BASE_URL" !in vars
    requires |endpoint| == 0 || endpoint[0] != '/'
    ensures CreateApiUrl(LoadConfig(vars), endpoint) == "http://localhost:8000/" + endpoint
    ensures CreateApiUrl(LoadConfig(vars), "/" + endpoint) == "http://localhost:8000/" + endpoint
  {
    CreateApiUrlOneSlash(LoadConfig(vars), "http://localhost:8000", endpoint);
  }

  /** Debug logging is on exactly when VITE_DEBUG spells "true" in any letter case
      and the node environment is "development", which is also the default. */
  lemma DebugLoggingFromVars(vars: Vars)
    ensures DebugLogWrites(LoadConfig(vars)) <==>
      && "VITE_DEBUG" in vars && SpellsIgnoringCase(vars["VITE_DEBUG"], "true")
      && ("VITE_NODE_ENV" !in vars || vars["VITE_NODE_ENV"] in {"", "development"})
  {
  }
}

=== FILE: error_view.dfy ===
/** The error display (frontend/src/components/Error.tsx) and the `ApiError`
    union it renders (frontend/src/types/error.ts). */
module ErrorView {
  import opened Wrappers

  /** One FastAPI validation failure: where (`loc`), what (`msg`), and its kind. */
  datatype ValidationError = ValidationError(loc: seq<string>, msg: string, kind: string)

  /** The `detail` of an error body: a message, or a list of validation failures. */
  datatype Detail = DetailText(text: string) | DetailList(errors: seq<ValidationError>)

  /** `ApiError`: null/undefined, a plain string, or an `{detail?, message?}` object. */
  datatype ApiError =
    | NoError
    | Message(text: string)
    | Body(detail: Option<Detail>, message: Option<string>)

  /** One list item of the rendered box: plain text, or a bold field label and a message. */
  datatype Line = Text(text: string) | FieldLine(field: string, msg: string)

  /** JavaScript truthiness of an optional string: present and non-empty. */
  predicate Truthy(s: Option<string>) {
    s.Some? && s.value != ""
  }

  /** `!error`: null, undefined and the empty string render nothing. */
  predicate IsFalsy(e: ApiError) {
    e.NoError? || (e.Message? && e.text == "")
  }

  /** `err.loc[1] || err.loc[0]`: the second location entry when present and
      non-empty, otherwise the first; a missing entry renders as nothing. */
  function FieldLabel(v: ValidationError): (lbl: string)
    ensures |v.loc| >= 2 && v.loc[1] != "" ==> lbl == v.loc[1]
    ensures (|v.loc| < 2 || v.loc[1] == "") && |v.loc| >= 1 ==> lbl == v.loc[0]
    ensures |v.loc| == 0 ==> lbl == ""
  {
    if |v.loc| >= 2 && v.loc[1] != "" then v.loc[1]
    else if |v.loc| >= 1 then v.loc[0]
    else ""
  }

  /** The `detail` branch applies: a non-empty string, or a non-empty list. */
  predicate DetailUsable(d: Option<Detail>) {
    d.Some? && match d.value
               case DetailText(t) => t != ""
               case DetailList(es) => |es| > 0
  }

  /** The lines the component shows for an error, in order; no lines means the
      component renders nothing. */
  function Lines(e: ApiError): (r: seq<Line>)
    ensures IsFalsy(e) ==> r == []
    ensures |r| != 1 ==> r == [] || (e.Body? && e.detail.Some? && e.detail.value.DetailList?)
    ensures forall i :: 0 <= i < |r| && r[i].Text? ==> r[i].text != ""
  {
    match e
    case NoError => []
    case Message(s) => if s == "" then [] else [Text(s)]
    case Body(d, m) =>
      if DetailUsable(d) then
        match d.value
        case DetailText(t) => [Text(t)]
        case DetailList(es) => seq(|es|, i requires 0 <= i < |es| => FieldLine(FieldLabel(es[i]), es[i].msg))
      else if Truthy(m) then [Text(m.value)]
      else []
  }

  /** A non-empty string renders as exactly that one line. */
  lemma StringRendersItself(s: string)
    requires s != ""
    ensures Lines(Message(s)) == [Text(s)]
  {
  }

  /** A non-empty string `detail` renders alone; `message` is ignored. */
  lemma DetailTextIgnoresMessage(t: string, m1: Option<string>, m2: Option<string>)
    requires t != ""
    ensures Lines(Body(Some(DetailText(t)), m1)) == [Text(t)]
    ensures Lines(Body(Some(DetailText(t)), m1)) == Lines(Body(Some(DetailText(t)), m2))
  {
  }

  /** A non-empty validation list renders one line per failure, in order, labelled
      by its location and followed by its message. */
  lemma DetailListOneLineEach(es: seq<ValidationError>, m: Option<string>)
    requires |es| > 0
    ensures var r := Lines(Body(Some(DetailList(es)), m));
      |r| == |es| && forall i :: 0 <= i < |es| ==> r[i] == FieldLine(FieldLabel(es[i]), es[i].msg)
  {
  }

  /** An empty list, an empty string or a missing `detail` falls through to `message`. */
  lemma FallsThroughToMessage(d: Option<Detail>, m: Option<string>)
    requires !DetailUsable(d)
    ensures Lines(Body(d, m)) == (if Truthy(m) then [Text(m.value)] else [])
  {
  }

  /** The box shows something exactly when the error carries a non-empty string
      somewhere the component looks: the string itself, a usable `detail`, or `message`. */
  lemma RendersSomethingIff(e: ApiError)
    ensures Lines(e) != [] <==>
      (e.Message? && e.text != "") || (e.Body? && (DetailUsable(e.detail) || Truthy(e.message)))
  {
  }
}

=== FILE: json.dfy ===
/** A decoded JSON value, as the frontend receives it from `response.json()`. */
module Json {
  import opened Wrappers

  datatype Json =
    | JNull
    | JBool(b: bool)
    | JNum(n: real)
    | JStr(s: string)
    | JArr(items: seq<Json>)
    | JObj(fields: map<string, Json>)

  /** JavaScript's `value.name` on an object; `None` stands for `undefined`
      (the property is absent, or the value is not an object). */
  function Field(v: Json, name: string): (r: Option<Json>)
    ensures r.Some? <==> v.JObj? && name in v.fields
  {
    if v.JObj? && name in v.fields then Some(v.fields[name]) else None
  }
}

=== FILE: page_common.dfy ===
/** What every page controller shares: the value a `catch` block receives, the
    three-way classification each page applies to it before storing it as the
    page's error, and event-sequence runs with the single-request guarantee. */
module PageCommon {
  import opened Wrappers
  import opened ErrorView
  import opened Text

  /** A thrown value, by the JavaScript tests the catch blocks apply to it. */
  datatype Caught =
    | CaughtBody(detail: Option<Detail>, message: Option<string>)  // an error body the API client rejects with
    | CaughtErrorInstance(errorMessage: string)                   // an `Error` (e.g. a network failure)
    | CaughtString(s: string)
    | CaughtNull
    | CaughtUndefined
    | CaughtOther                                                 // a number, boolean, ...

  /** `typeof err === "object" && err !== null`; an `Error` is an object too. */
  predicate IsNonNullObject(c: Caught) {
    c.CaughtBody? || c.CaughtErrorInstance?
  }

  /** `err instanceof Error`. */
  predicate IsErrorInstance(c: Caught) {
    c.CaughtErrorInstance?
  }

  /** The object itself, read as an `ApiError`: an `Error` has a `message` and no `detail`. */
  function AsApiError(c: Caught): ApiError
    requires IsNonNullObject(c)
  {
    match c
    case CaughtBody(d, m) => Body(d, m)
    case CaughtErrorInstance(m) => Body(None, Some(m))
  }

  /** The catch blocks of every page, in their branch order: an object is stored as
      it is, else an `Error`'s message, else a string as it is, else `fallback`. */
  function Classify(c: Caught, fallback: string): (e: ApiError)
    ensures !e.NoError?
    ensures c.CaughtBody? ==> e == Body(c.detail, c.message)
    ensures c.CaughtString? ==> e == Message(c.s)
    ensures c.CaughtNull? || c.CaughtUndefined? || c.CaughtOther? ==> e == Message(fallback)
  {
    if IsNonNullObject(c) then AsApiError(c)
    else if IsErrorInstance(c) then
      // `setError(err.message)`: unreachable, an `Error` is an object
      assert false; Message("")
    else if c.CaughtString? then Message(c.s)
    else Message(fallback)
  }

  /** The `err instanceof Error` branch is dead: an `Error` is already caught by the
      object test, so it is stored as an object whose `message` the error box shows. */
  lemma ErrorInstanceTakesObjectBranch(m: string, fallback: string)
    ensures IsErrorInstance(CaughtErrorInstance(m)) && IsNonNullObject(CaughtErrorInstance(m))
    ensures Classify(CaughtErrorInstance(m), fallback) == Body(None, Some(m))
    ensures m != "" ==> Lines(Classify(CaughtErrorInstance(m), fallback)) == [Text(m)]
  {
  }

  /** The fallback text is shown exactly for values that are neither objects nor strings. */
  lemma FallbackShownIff(c: Caught, fallback: string)
    requires fallback != ""
    ensures Lines(Classify(c, fallback)) == [Text(fallback)] <==>
      (c.CaughtNull? || c.CaughtUndefined? || c.CaughtOther?)
      || (c.CaughtString? && c.s == fallback)
      || (IsNonNullObject(c) && Lines(AsApiError(c)) == [Text(fallback)])
  {
  }

  /** `!s.trim()`: empty once JavaScript whitespace is trimmed from both ends. */
  predicate IsBlank(s: string) {
    Trim(s, IsJsWhitespace) == ""
  }

  /** Where the two edit pages go after a successful update: the question's detail
      page when the route names a question, else the list. */
  function AfterUpdate(questionId: Option<string>): (path: string)
    ensures Truthy(questionId) ==> path == "/question/" + questionId.value
    ensures !Truthy(questionId) ==> path == "/question/list"
  {
    if Truthy(questionId) then "/question/" + questionId.value else "/question/list"
  }

  // ---------------------------------------------------------------------------
  // Runs of a page controller over a sequence of events
  // ---------------------------------------------------------------------------

  function B(b: bool): nat {
    if b then 1 else 0
  }

  function CountWhere<T>(xs: seq<T>, p: T -> bool): (n: nat)
    ensures n <= |xs|
  {
    if xs == [] then 0 else B(p(xs[0])) + CountWhere(xs[1..], p)
  }

  lemma {:induction false} CountWhereAppend<T>(xs: seq<T>, ys: seq<T>, p: T -> bool)
    ensures CountWhere(xs + ys, p) == CountWhere(xs, p) + CountWhere(ys, p)
  {
    if xs != [] {
      assert (xs + ys)[0] == xs[0];
      assert (xs + ys)[1..] == xs[1..] + ys;
      CountWhereAppend(xs[1..], ys, p);
    } else {
      assert xs + ys == ys;
    }
  }

  /** Feeds `events` to `step` one after another, collecting the effects in order. */
  function Run<P, E, F>(step: (P, E) -> (P, seq<F>), p: P, events: seq<E>): (P, seq<F>)
    decreases |events|
  {
    if events == [] then (p, [])
    else
      var (q, fx) := step(p, events[0]);
      var (r, gx) := Run(step, q, events[1..]);
      (r, fx + gx)
  }

  /** One step never starts a request while one is outstanding: a step emits at most
      one request, only from a state that is not busy, and if it does the next state
      is busy; only a response event makes a busy state idle. */
  ghost predicate SingleFlightStep<P(!new), E(!new), F>(
    step: (P, E) -> (P, seq<F>), busy: P -> bool, isRequest: F -> bool, isResponse: E -> bool)
  {
    forall p, e ::
      CountWhere(step(p, e).1, isRequest) + B(busy(p)) <= B(busy(step(p, e).0)) + B(isResponse(e))
  }

  /** Over any run, requests sent never exceed responses received plus one (none
      when starting busy): at most one request is in flight at any time. Every
      response event counts, including a late one the controller ignores while
      idle, so over a whole run this is an upper bound; `SingleFlightStep` is the
      exact per-step guarantee (a request only from an idle state, which it leaves
      busy). */
  lemma {:induction false} SingleFlight<P(!new), E(!new), F>(
    step: (P, E) -> (P, seq<F>), busy: P -> bool, isRequest: F -> bool, isResponse: E -> bool,
    p: P, events: seq<E>)
    requires SingleFlightStep(step, busy, isRequest, isResponse)
    ensures CountWhere(Run(step, p, events).1, isRequest) + B(busy(p))
            <= B(busy(Run(step, p, events).0)) + CountWhere(events, isResponse)
    decreases |events|
  {
    if events != [] {
      var (q, fx) := step(p, events[0]);
      var (r, gx) := Run(step, q, events[1..]);
      SingleFlight(step, busy, isRequest, isResponse, q, events[1..]);
      CountWhereAppend(fx, gx, isRequest);
    }
  }
}

=== FILE: question_detail_page.dfy ===
/** The question detail page (frontend/src/pages/QuestionDetail.tsx): the back link,
    the fetch on mount, posting an answer followed by a refetch, and what is shown. */
module QuestionDetailPage {
  import opened Wrappers
  import opened Text
  import opened ErrorView
  import opened PageCommon
  import opened Questions

  const MissingIdMessage := "질문 ID가 없습니다."
  const LoadFallback := "Unknown error occurred"
  const PostFallback := "Failed to post answer"
  const DefaultPage := 0
  const DefaultSize := 10

  /** The router state the list page leaves behind; `None` is null or undefined. */
  datatype Location = Location(fromPage: Option<int>, fromSize: Option<int>)

  /** Where an answer submission stands: the post, then the refetch of the question.
      `id` is the `parseInt` of the route id taken when the button was pressed. */
  datatype Posting = Idle | AwaitPost(id: Option<int>) | AwaitRefetch

  datatype Page = Page(
    routeId: Option<string>,
    location: Location,
    question: Option<Question>,
    isLoading: bool,
    error: ApiError,
    content: string,
    posting: Posting)

  datatype Event =
    | Mount                      // the effect runs for the route id
    | Loaded(q: Question)        // the mount fetch resolved
    | LoadFailed(c: Caught)      // the mount fetch rejected
    | EditContent(value: string)
    | ClearContent               // the reset button
    | PostClicked
    | AnswerPosted               // `postAnswer` resolved
    | Refetched(q: Question)     // the refetch after posting resolved
    | PostFailed(c: Caught)      // `postAnswer` or the refetch rejected

  /** `getQuestionDetail(parseInt(id))` and `postAnswer(parseInt(id), content)`;
      `None` stands for NaN. */
  datatype Effect = FetchQuestion(id: Option<int>) | PostAnswer(id: Option<int>, content: string)

  function Initial(routeId: Option<string>, location: Location): Page {
    Page(routeId, location, None, true, NoError, "", Idle)
  }

  /** `!id`: undefined or empty. */
  predicate IdMissing(id: Option<string>) {
    !Truthy(id)
  }

  predicate IsSubmitting(p: Page) {
    !p.posting.Idle?
  }

  /** The link back to the list: the page and size the list page passed along, with
      0 and 10 replacing only a missing value. */
  function ListUrl(loc: Location): (url: string)
    ensures |url| >= 28 && url[..20] == "/question/list?page="
  {
    "/question/list?page=" + IntToString(loc.fromPage.GetOr(DefaultPage))
      + "&size=" + IntToString(loc.fromSize.GetOr(DefaultSize))
  }

  lemma IntToStringHasNoAmpersand(i: int)
    ensures '&' !in IntToString(i)
  {
    assert !IsDigitIn('&', 10);
  }

  /** The back link has exactly two query parameters, and each reads back as the
      value passed, or its default when none was. */
  lemma ListUrlReadsBack(loc: Location)
    requires IsSafeInteger(loc.fromPage.GetOr(DefaultPage)) && IsSafeInteger(loc.fromSize.GetOr(DefaultSize))
    ensures var parts := Split(ListUrl(loc), '&');
      && |parts| == 2 && |parts[0]| >= 20 && |parts[1]| >= 5
      && parts[0][..20] == "/question/list?page=" && parts[1][..5] == "size="
      && ParseInt(parts[0][20..]) == Some(loc.fromPage.GetOr(DefaultPage))
      && ParseInt(parts[1][5..]) == Some(loc.fromSize.GetOr(DefaultSize))
  {
    var pg := IntToString(loc.fromPage.GetOr(DefaultPage));
    var sz := IntToString(loc.fromSize.GetOr(DefaultSize));
    var parts := ["/question/list?page=" + pg, "size=" + sz];
    IntToStringHasNoAmpersand(loc.fromPage.GetOr(DefaultPage));
    IntToStringHasNoAmpersand(loc.fromSize.GetOr(DefaultSize));
    assert '&' !in parts[0] by {
      assert parts[0] == "/question/list?page=" + pg;
    }
    assert '&' !in parts[1] by {
      assert parts[1] == "size=" + sz;
    }
    assert Join(parts, '&') == ListUrl(loc);
    SplitJoin(parts, '&');
    assert parts[0][20..] == pg;
    assert parts[1][5..] == sz;
    ParseIntOfDecimal(loc.fromPage.GetOr(DefaultPage));
    ParseIntOfDecimal(loc.fromSize.GetOr(DefaultSize));
  }

  /** Without router state the link asks for the first page of ten. */
  lemma ListUrlDefaults()
    ensures ListUrl(Location(None, None)) == "/question/list?page=0&size=10"
  {
  }

  function Step(p: Page, e: Event): (r: (Page, seq<Effect>))
    ensures e.Mount? && IdMissing(p.routeId) ==>
              r == (p.(error := Message(MissingIdMessage), isLoading := false), [])
    ensures e.Mount? && !IdMissing(p.routeId) ==>
              r == (p.(isLoading := true, error := NoError), [FetchQuestion(ParseInt(p.routeId.value))])
    ensures e.PostClicked? && (IdMissing(p.routeId) || IsBlank(p.content) || IsSubmitting(p)) ==> r == (p, [])
    ensures e.PostClicked? && !(IdMissing(p.routeId) || IsBlank(p.content) || IsSubmitting(p)) ==>
              r == (p.(posting := AwaitPost(ParseInt(p.routeId.value)), error := NoError),
                    [PostAnswer(ParseInt(p.routeId.value), p.content)])
    ensures e.PostFailed? && IsSubmitting(p) ==>
              r == (p.(posting := Idle, error := Classify(e.c, PostFallback)), [])
  {
    match e
    case Mount =>
      if IdMissing(p.routeId) then (p.(error := Message(MissingIdMessage), isLoading := false), [])
      else (p.(isLoading := true, error := NoError), [FetchQuestion(ParseInt(p.routeId.value))])
    case Loaded(q) =>
      if !p.isLoading then (p, []) else (p.(question := Some(q), isLoading := false), [])
    case LoadFailed(c) =>
      if !p.isLoading then (p, []) else (p.(error := Classify(c, LoadFallback), isLoading := false), [])
    case EditContent(value) => (p.(content := value), [])
    case ClearContent => (p.(content := ""), [])
    case PostClicked =>
      if IdMissing(p.routeId) || IsBlank(p.content) || IsSubmitting(p) then (p, [])
      else
        var id := ParseInt(p.routeId.value);
        (p.(posting := AwaitPost(id), error := NoError), [PostAnswer(id, p.content)])
    case AnswerPosted =>
      if !p.posting.AwaitPost? then (p, [])
      else (p.(content := "", posting := AwaitRefetch), [FetchQuestion(p.posting.id)])
    case Refetched(q) =>
      if !p.posting.AwaitRefetch? then (p, [])
      else (p.(question := Some(q), posting := Idle), [])
    case PostFailed(c) =>
      if !IsSubmitting(p) then (p, [])
      else (p.(posting := Idle, error := Classify(c, PostFallback)), [])
  }

  /** A missing route id is reported and ends loading without any request. */
  lemma MissingIdStopsLoading(p: Page)
    requires IdMissing(p.routeId)
    ensures var (q, fx) := Step(p, Mount);
      !q.isLoading && Lines(q.error) == [Text(MissingIdMessage)] && fx == []
  {
  }

  /** An answer is posted exactly when the route has an id, the content is not blank
      and no submission is outstanding; the content goes out as typed. */
  lemma PostGuard(p: Page)
    ensures Step(p, PostClicked).1 != [] <==>
      !IdMissing(p.routeId) && !IsBlank(p.content) && !IsSubmitting(p)
    ensures Step(p, PostClicked).1 != [] ==> Step(p, PostClicked).1[0].content == p.content
  {
  }

  /** The typed content is cleared only by the user or once the post has resolved; a
      failure keeps it for another try. */
  lemma ContentClearedOnlyAfterPost(p: Page, e: Event)
    requires Step(p, e).0.content != p.content
    ensures e.EditContent? || e.ClearContent? || (e.AnswerPosted? && p.posting.AwaitPost?)
  {
  }

  lemma FailureKeepsContent(p: Page, c: Caught)
    ensures Step(p, PostFailed(c)).0.content == p.content
    ensures !IsSubmitting(Step(p, PostFailed(c)).0)
  {
  }

  /** A successful post asks for the question again under the id it posted to, and
      the submission ends when the fresh question arrives. */
  lemma PostThenRefetch(p: Page, q: Question)
    requires !IdMissing(p.routeId) && !IsBlank(p.content) && !IsSubmitting(p)
    ensures var p1 := Step(p, PostClicked).0;
      var (p2, fx) := Step(p1, AnswerPosted);
      && fx == [FetchQuestion(ParseInt(p.routeId.value))]
      && p2.content == "" && IsSubmitting(p2)
      && Step(p2, Refetched(q)).0 == p2.(question := Some(q), posting := Idle)
  {
    PostAwaits(p);
    var p1 := Step(p, PostClicked).0;
    AnswerPostedRefetches(p1);
    RefetchEnds(Step(p1, AnswerPosted).0, q);
  }

  lemma PostAwaits(p: Page)
    requires !IdMissing(p.routeId) && !IsBlank(p.content) && !IsSubmitting(p)
    ensures Step(p, PostClicked).0.posting == AwaitPost(ParseInt(p.routeId.value))
  {
  }

  lemma RefetchEnds(p: Page, q: Question)
    requires p.posting.AwaitRefetch?
    ensures Step(p, Refetched(q)).0 == p.(question := Some(q), posting := Idle)
  {
  }

  lemma AnswerPostedRefetches(p: Page)
    requires p.posting.AwaitPost?
    ensures Step(p, AnswerPosted) == (p.(content := "", posting := AwaitRefetch), [FetchQuestion(p.posting.id)])
  {
  }

  /** The answer-count label: the number of answers, 0 when the field is absent. */
  function AnswerCount(q: Question): (n: nat)
    ensures q.answers.None? ==> n == 0
    ensures q.answers.Some? ==> n == |q.answers.value|
  {
    match q.answers
    case None => 0
    case Some(answers) => |answers|
  }

  /** The "no answers yet" block is shown exactly when the label says 0. */
  predicate ShowsNoAnswers(q: Question) {
    q.answers.None? || |q.answers.value| == 0
  }

  lemma NoAnswersIffZero(q: Question)
    ensures ShowsNoAnswers(q) <==> AnswerCount(q) == 0
  {
  }

  /** The answer box, the reset and the submit button are disabled while the content
      is blank, a submission is outstanding, or the user is not logged in (the text
      area itself only for the last two). */
  predicate ButtonsDisabled(p: Page, isAuthenticated: bool) {
    IsBlank(p.content) || IsSubmitting(p) || !isAuthenticated
  }

  /** A click the enabled button lets through posts unless the route id is missing;
      anything the disabled rule blocks for a logged-in user the handler refuses too. */
  lemma ButtonsMatchGuard(p: Page)
    ensures !ButtonsDisabled(p, true) && !IdMissing(p.routeId) ==> Step(p, PostClicked).1 != []
    ensures ButtonsDisabled(p, true) ==> Step(p, PostClicked) == (p, [])
  {
  }

  datatype View = Spinner | NotFound(backLink: string) | Shown(q: Question, answerCount: nat, errorLines: seq<Line>, backLink: string)

  function Render(p: Page): (v: View)
    ensures p.isLoading <==> v.Spinner?
    ensures v.NotFound? <==> !p.isLoading && p.question.None?
    ensures !v.Spinner? ==> v.backLink == ListUrl(p.location)
    ensures v.Shown? ==> v.q == p.question.value && v.answerCount == AnswerCount(v.q)
  {
    if p.isLoading then Spinner
    else if p.question.None? then NotFound(ListUrl(p.location))
    else Shown(p.question.value, AnswerCount(p.question.value), Lines(p.error), ListUrl(p.location))
  }

  /** A missing route id ends on the not-found view with the back link, the error
      message never reaching the screen. */
  lemma MissingIdRendersNotFound(id: Option<string>, loc: Location)
    requires IdMissing(id)
    ensures Render(Step(Initial(id, loc), Mount).0) == NotFound(ListUrl(loc))
  {
  }

  predicate IsRequest(f: Effect) {
    f.PostAnswer?
  }

  predicate IsResponse(e: Event) {
    e.Refetched? || e.PostFailed?
  }

  predicate Busy(p: Page) {
    IsSubmitting(p)
  }

  lemma StepSingleFlight()
    ensures SingleFlightStep(Step, Busy, IsRequest, IsResponse)
  {
    forall p, e
      ensures CountWhere(Step(p, e).1, IsRequest) + B(Busy(p))
              <= B(Busy(Step(p, e).0)) + B(IsResponse(e))
    {
      if e.PostClicked? {
        assert CountWhere(Step(p, e).1, IsRequest) <= 1;
      } else {
        assert CountWhere(Step(p, e).1, IsRequest) == 0;
      }
    }
  }

  /** Answers posted never outnumber the ends of submissions by more than one. */
  lemma NeverTwoPostsInFlight(id: Option<string>, loc: Location, events: seq<Event>)
    ensures CountWhere(Run(Step, Initial(id, loc), events).1, IsRequest) <= CountWhere(events, IsResponse) + 1
  {
    StepSingleFlight();
    SingleFlight(Step, Busy, IsRequest, IsResponse, Initial(id, loc), events);
  }
}

=== FILE: question_list_page.dfy ===
/** The question list page (frontend/src/pages/QuestionList.tsx): the one fetch on
    mount, and the choice between spinner, error box, placeholder and table, with
    the numbered rows and their content previews. */
module QuestionListPage {
  import opened Wrappers
  import opened Text
  import opened Unicode
  import opened ErrorView
  import opened PageCommon
  import opened Questions

  const FailureFallback := "Unknown error occurred"
  /** Longest preview kept before the ellipsis, in UTF-16 code units. */
  const PreviewLength := 50
  const Ellipsis := "..."

  datatype Page = Page(isLoading: bool, error: ApiError, questionList: seq<Question>)

  datatype Event =
    | Mount                       // the effect runs once, on mount
    | Loaded(list: seq<Question>) // `getQuestionList` resolved
    | LoadFailed(c: Caught)       // `getQuestionList` rejected

  datatype Effect = FetchList

  const Initial := Page(true, NoError, [])

  /** The controller; responses are applied whenever they arrive. */
  function Step(p: Page, e: Event): (r: (Page, seq<Effect>))
    ensures r.1 == (if e.Mount? then [FetchList] else [])
    ensures r.0.isLoading <==> e.Mount?
    ensures r.0.questionList != p.questionList ==> e.Loaded?
    ensures e.Loaded? ==> r.0.questionList == e.list
    ensures r.0.error != p.error ==> e.Mount? || e.LoadFailed?
    ensures e.Mount? ==> r.0.error == NoError
    ensures e.LoadFailed? ==> r.0.error == Classify(e.c, FailureFallback)
  {
    match e
    case Mount => (p.(isLoading := true, error := NoError), [FetchList])
    case Loaded(list) => (p.(questionList := list, isLoading := false), [])
    case LoadFailed(c) => (p.(error := Classify(c, FailureFallback), isLoading := false), [])
  }

  /** The text under a row's subject, as UTF-16 code units (JavaScript `length` and
      `substring` count code units): nothing for empty content, the content itself
      up to 50 units, otherwise its first 50 units and an ellipsis. */
  function Preview(content: string): (r: Option<seq<CodeUnit>>)
    ensures r.None? <==> content == ""
    ensures r.Some? ==> |r.value| <= PreviewLength + |Ellipsis|
    ensures r.Some? && JsLength(content) <= PreviewLength ==> r.value == Utf16(content)
    ensures r.Some? && JsLength(content) > PreviewLength ==>
              r.value == Utf16(content)[..PreviewLength] + Utf16(Ellipsis)
  {
    if content == "" then None
    else
      var u := Utf16(content);
      if |u| > PreviewLength then
        assert |Utf16(Ellipsis)| == 3 by {
          JsLengthBmp(Ellipsis);
        }
        Some(u[..PreviewLength] + Utf16(Ellipsis))
      else Some(u)
  }

  /** A preview is always a prefix of the content's code units, possibly followed by
      the ellipsis, and it is never longer than 53 units. */
  lemma PreviewIsPrefix(content: string)
    requires content != ""
    ensures var r := Preview(content).value; var u := Utf16(content);
      || r == u
      || (|r| == PreviewLength + 3 && r[..PreviewLength] == u[..PreviewLength]
          && r[PreviewLength..] == [46, 46, 46])
  {
    JsLengthBmp(Ellipsis);
  }

  /** For text in the Basic Multilingual Plane the code units are the characters, so
      a short content is shown exactly and a long one loses everything after its
      fiftieth character. */
  lemma PreviewOfBmpText(content: string)
    requires content != ""
    requires forall k :: 0 <= k < |content| ==> content[k] as int < 0x1_0000
    ensures |content| <= PreviewLength ==> Preview(content) == Some(Utf16(content))
    ensures |content| > PreviewLength ==>
      Preview(content) == Some(Utf16(content[..PreviewLength] + Ellipsis))
  {
    if |content| > PreviewLength {
      BmpCut(content);
      Utf16Append(content[..PreviewLength], Ellipsis);
    } else {
      JsLengthBmp(content);
    }
  }

  /** For text in the Basic Multilingual Plane, cutting the code units at 50 is
      cutting the characters at 50. */
  lemma BmpCut(content: string)
    requires |content| > PreviewLength
    requires forall k :: 0 <= k < |content| ==> content[k] as int < 0x1_0000
    ensures JsLength(content) > PreviewLength
    ensures Utf16(content)[..PreviewLength] == Utf16(content[..PreviewLength])
  {
    var head, tail := content[..PreviewLength], content[PreviewLength..];
    assert head + tail == content;
    Utf16Append(head, tail);
    JsLengthBmp(head);
  }

  /** The cut is by code unit, so it can fall inside a surrogate pair: 49 letters and
      an emoji keep only the emoji's high surrogate before the ellipsis. */
  lemma PreviewMaySplitPair()
    ensures var content := seq(49, _ => 'a') + "\U{1F600}";
      Preview(content).value[49] == 0xD83D && Preview(content).value[50..] == [46, 46, 46]
  {
    var a := seq(49, _ => 'a');
    var content := a + "\U{1F600}";
    Utf16Append(a, "\U{1F600}");
    JsLengthBmp(a);
    JsLengthBmp(Ellipsis);
  }

  datatype Row = Row(number: nat, link: string, subject: string, preview: Option<seq<CodeUnit>>)

  /** The table rows: row `i` is numbered `i + 1` and links to its question. */
  function Rows(list: seq<Question>): (rows: seq<Row>)
    ensures |rows| == |list|
    ensures forall i :: 0 <= i < |rows| ==> rows[i].number == i + 1
    ensures forall i :: 0 <= i < |rows| ==>
      rows[i].subject == list[i].subject && rows[i].preview == Preview(list[i].content)
  {
    seq(|list|, i requires 0 <= i < |list| =>
      Row(i + 1, "/question/" + IntToString(list[i].id), list[i].subject, Preview(list[i].content)))
  }

  /** The link of each row carries the question's id, which the detail page reads
      back when it is a safe integer. */
  lemma RowLinkNamesQuestion(list: seq<Question>, i: nat)
    requires i < |list| && IsSafeInteger(list[i].id)
    ensures var link := Rows(list)[i].link;
      link[..10] == "/question/" && ParseInt(link[10..]) == Some(list[i].id)
  {
    ParseIntOfDecimal(list[i].id);
    assert Rows(list)[i].link[10..] == IntToString(list[i].id);
  }

  datatype View =
    | Spinner
    | ErrorBox(lines: seq<Line>)
    | Placeholder
    | Table(rows: seq<Row>)

  /** What the page renders: the spinner while loading, the error box for a truthy
      error (in place of the table), the placeholder for an empty list, else the table. */
  function Render(p: Page): (v: View)
    ensures p.isLoading <==> v.Spinner?
    ensures v.ErrorBox? <==> !p.isLoading && !IsFalsy(p.error)
    ensures v.Placeholder? <==> !p.isLoading && IsFalsy(p.error) && p.questionList == []
    ensures v.Table? ==> |v.rows| == |p.questionList| > 0
  {
    if p.isLoading then Spinner
    else if !IsFalsy(p.error) then ErrorBox(Lines(p.error))
    else if |p.questionList| == 0 then Placeholder
    else Table(Rows(p.questionList))
  }

  /** An error object with neither a usable `detail` nor a `message` still replaces
      the table, and the error box it is replaced by is empty. */
  lemma SilentErrorHidesTable(p: Page)
    requires !p.isLoading && p.error == Body(None, None)
    ensures Render(p) == ErrorBox([])
  {
  }

  /** Whatever the fetch returns, the page leaves the spinner after one response,
      and a failed fetch shows an error box rather than a table. */
  lemma FetchOutcomeRendered(c: Caught, list: seq<Question>)
    ensures Render(Step(Step(Initial, Mount).0, Loaded(list)).0) == (if list == [] then Placeholder else Table(Rows(list)))
    ensures Render(Step(Step(Initial, Mount).0, LoadFailed(c)).0).ErrorBox?
              || (c.CaughtString? && c.s == "")
  {
  }
}

=== FILE: question_modify_page.dfy ===
/** The question edit page (frontend/src/pages/QuestionModify.tsx): loading the
    question into the form, the guarded update, and where a success leads. */
module QuestionModifyPage {
  import opened Wrappers
  import opened Text
  import opened ErrorView
  import opened PageCommon

  const LoadFallback := "질문 정보를 불러오는데 실패했습니다."
  const UpdateFallback := "질문 수정에 실패했습니다."

  datatype Page = Page(
    questionId: Option<string>,  // the route parameter
    subject: string,
    content: string,
    error: ApiError,
    isSubmitting: bool)

  datatype Event =
    | Mount                                     // the effect runs for the route id
    | Loaded(subject: string, content: string)  // the question fetch resolved
    | LoadFailed(c: Caught)                     // the question fetch rejected
    | EditSubject(value: string)
    | EditContent(value: string)
    | Reset                                     // the reset button
    | SubmitClicked
    | Updated                                   // `putQuestion` resolved
    | UpdateFailed(c: Caught)                   // `putQuestion` rejected

  /** `None` as an id stands for NaN. */
  datatype Effect =
    | FetchQuestion(id: Option<int>)
    | PutQuestion(id: Option<int>, subject: string, content: string)
    | Navigate(path: string)

  function Initial(questionId: Option<string>): Page {
    Page(questionId, "", "", NoError, false)
  }

  /** The rule that disables the reset and submit buttons, which the submit handler
      also applies as its guard. */
  predicate ButtonsDisabled(p: Page) {
    IsBlank(p.subject) || IsBlank(p.content) || p.isSubmitting
  }

  /** The id the update is sent to: the route id, or "0" when there is none. */
  function TargetId(questionId: Option<string>): Option<int> {
    ParseInt(questionId.GetOr("0"))
  }

  /** One event: the route id never changes and at most one effect goes out; the
      fetch exactly on mounting with a truthy id, the update exactly for a submit the
      buttons allow (carrying the target id and both fields), the navigation exactly
      when an update in flight succeeds; a response with nothing in flight changes
      nothing; the fields change only on loading, editing or reset, where reset
      empties both. */
  function Step(p: Page, e: Event): (r: (Page, seq<Effect>))
    ensures r.0.questionId == p.questionId && |r.1| <= 1
    ensures (r.1 != [] && r.1[0].FetchQuestion?) <==> e.Mount? && Truthy(p.questionId)
    ensures (r.1 != [] && r.1[0].PutQuestion?) <==> e.SubmitClicked? && !ButtonsDisabled(p)
    ensures r.1 != [] && r.1[0].PutQuestion? ==>
      r.1[0] == PutQuestion(TargetId(p.questionId), p.subject, p.content) && r.0.isSubmitting && r.0.error == NoError
    ensures (r.1 != [] && r.1[0].Navigate?) <==> e.Updated? && p.isSubmitting
    ensures r.1 != [] && r.1[0].Navigate? ==> r.1[0].path == AfterUpdate(p.questionId) && !r.0.isSubmitting
    ensures (e.Updated? || e.UpdateFailed?) && !p.isSubmitting ==> r == (p, [])
    ensures (r.0.subject, r.0.content) != (p.subject, p.content) ==>
      e.Loaded? || e.EditSubject? || e.EditContent? || e.Reset?
    ensures e.Reset? ==> r.0.subject == "" && r.0.content == ""
    ensures r.0.isSubmitting != p.isSubmitting ==> e.SubmitClicked? || e.Updated? || e.UpdateFailed?
  {
    match e
    case Mount =>
      if Truthy(p.questionId) then (p, [FetchQuestion(ParseInt(p.questionId.value))]) else (p, [])
    case Loaded(subject, content) => (p.(subject := subject, content := content), [])
    case LoadFailed(c) => (p.(error := Classify(c, LoadFallback)), [])
    case EditSubject(value) => (p.(subject := value), [])
    case EditContent(value) => (p.(content := value), [])
    case Reset => (p.(subject := "", content := ""), [])
    case SubmitClicked =>
      if ButtonsDisabled(p) then (p, [])
      else
        (p.(isSubmitting := true, error := NoError),
         [PutQuestion(TargetId(p.questionId), p.subject, p.content)])
    case Updated =>
      if !p.isSubmitting then (p, [])
      else (p.(isSubmitting := false), [Navigate(AfterUpdate(p.questionId))])
    case UpdateFailed(c) =>
      if !p.isSubmitting then (p, [])
      else (p.(isSubmitting := false, error := Classify(c, UpdateFallback)), [])
  }

  /** An update is sent exactly when both fields have non-blank text and nothing is
      outstanding, that is exactly when the buttons are enabled. */
  lemma SubmitGuard(p: Page)
    ensures Step(p, SubmitClicked).1 != [] <==>
      !IsBlank(p.subject) && !IsBlank(p.content) && !p.isSubmitting
    ensures ButtonsDisabled(p) <==> Step(p, SubmitClicked).1 == []
  {
  }

  /** A route naming question `n` (a safe integer) updates question `n` and returns to its page;
      without a route id the update goes to question 0 and the list is shown next;
      an empty route id sends NaN. */
  lemma TargetAndDestination(p: Page, n: int)
    requires IsSafeInteger(n)
    ensures p.questionId == Some(IntToString(n)) ==>
      TargetId(p.questionId) == Some(n) && AfterUpdate(p.questionId) == "/question/" + IntToString(n)
    ensures p.questionId.None? ==>
      TargetId(p.questionId) == Some(0) && AfterUpdate(p.questionId) == "/question/list"
    ensures p.questionId == Some("") ==>
      TargetId(p.questionId) == None && AfterUpdate(p.questionId) == "/question/list"
  {
    if p.questionId == Some(IntToString(n)) {
      ParseIntOfDecimal(n);
      assert IntToString(n) != "";
    } else if p.questionId.None? {
      ParseIntOfZero();
    }
  }

  /** Whatever went wrong, a failed update ends the submission and leaves an error
      on the page; a thrown value that is neither an object nor a string shows the
      page's own message. */
  lemma FailureShown(p: Page, c: Caught)
    requires p.isSubmitting
    ensures !Step(p, UpdateFailed(c)).0.isSubmitting
    ensures !Step(p, UpdateFailed(c)).0.error.NoError?
    ensures c.CaughtNull? || c.CaughtUndefined? || c.CaughtOther? ==>
      Lines(Step(p, UpdateFailed(c)).0.error) == [Text(UpdateFallback)]
  {
  }

  predicate IsRequest(f: Effect) {
    f.PutQuestion?
  }

  predicate IsResponse(e: Event) {
    e.Updated? || e.UpdateFailed?
  }

  predicate Busy(p: Page) {
    p.isSubmitting
  }

  lemma StepSingleFlight()
    ensures SingleFlightStep(Step, Busy, IsRequest, IsResponse)
  {
    forall p, e
      ensures CountWhere(Step(p, e).1, IsRequest) + B(Busy(p))
              <= B(Busy(Step(p, e).0)) + B(IsResponse(e))
    {
    }
  }

  /** Updates sent never outnumber their responses by more than one. */
  lemma NeverTwoUpdatesInFlight(questionId: Option<string>, events: seq<Event>)
    ensures CountWhere(Run(Step, Initial(questionId), events).1, IsRequest) <= CountWhere(events, IsResponse) + 1
  {
    StepSingleFlight();
    SingleFlight(Step, Busy, IsRequest, IsResponse, Initial(questionId), events);
  }
}

=== FILE: question_utils.dfy ===
/** The response-shape normaliser for the question list endpoint
    (frontend/src/utils/questionUtils.ts): it accepts a bare array of questions,
    a paged `{items}` envelope, or a legacy `{questions}` envelope, in that order. */
module QuestionUtils {
  import opened Wrappers
  import opened Json

  /** The message of the error thrown when no envelope matches. */
  const FormatError := "Invalid question list response format"

  predicate IsNumberField(v: Json, name: string) {
    Field(v, name).Some? && Field(v, name).value.JNum?
  }

  predicate IsStringField(v: Json, name: string) {
    Field(v, name).Some? && Field(v, name).value.JStr?
  }

  /** `isValidQuestion`: a non-null object with a numeric `id` and string `subject`,
      `content` and `create_date`; any other fields are allowed. */
  predicate IsValidQuestion(v: Json) {
    && v.JObj?
    && IsNumberField(v, "id")
    && IsStringField(v, "subject")
    && IsStringField(v, "content")
    && IsStringField(v, "create_date")
  }

  predicate AllValid(questions: seq<Json>) {
    forall i :: 0 <= i < |questions| ==> IsValidQuestion(questions[i])
  }

  /** `isValidQuestionList`, applied to a value that may be `undefined`: an array
      whose every element is a valid question (so the empty array qualifies). */
  predicate IsValidQuestionList(v: Option<Json>) {
    v.Some? && v.value.JArr? && AllValid(v.value.items)
  }

  /** `typeof data === "object" && data !== null`: objects and arrays. */
  predicate IsNonNullObject(data: Json) {
    data.JObj? || data.JArr?
  }

  /** `parseQuestionListResponse`: the question list carried by `data`, or the
      format error. */
  function ParseQuestionListResponse(data: Json): (r: Result<seq<Json>, string>)
    ensures r.Ok? ==> AllValid(r.value)
    ensures r.Ok? ==> data == JArr(r.value)
                      || Field(data, "items") == Some(JArr(r.value))
                      || Field(data, "questions") == Some(JArr(r.value))
    ensures r.Err? ==> r.error == FormatError
  {
    if IsValidQuestionList(Some(data)) then
      Ok(data.items)
    else if IsNonNullObject(data) && IsValidQuestionList(Field(data, "items")) then
      Ok(Field(data, "items").value.items)
    else if IsNonNullObject(data) && IsValidQuestionList(Field(data, "questions")) then
      Ok(Field(data, "questions").value.items)
    else
      Err(FormatError)
  }

  // ---------------------------------------------------------------------------
  // The three envelopes, built independently of the parser
  // ---------------------------------------------------------------------------

  datatype Envelope = Bare | Paged | Legacy

  /** Wraps a question list in an envelope; `extra` holds any further fields of an
      object envelope (such as `total`). */
  function Wrap(env: Envelope, questions: seq<Json>, extra: map<string, Json>): Json {
    match env
    case Bare => JArr(questions)
    case Paged => JObj(extra["items" := JArr(questions)])
    case Legacy => JObj(extra["questions" := JArr(questions)])
  }

  /** Every envelope around a valid list parses back to that list, whatever else
      the object holds, except that a legacy envelope also carrying a valid `items`
      list yields `items` instead. */
  lemma ParseWrap(env: Envelope, questions: seq<Json>, extra: map<string, Json>)
    requires AllValid(questions)
    requires env.Legacy? ==> !IsValidQuestionList(Field(JObj(extra), "items"))
    ensures ParseQuestionListResponse(Wrap(env, questions, extra)) == Ok(questions)
  {
    if env.Legacy? {
      assert Field(Wrap(env, questions, extra), "items") == Field(JObj(extra), "items");
    }
  }

  /** Conversely, whatever parses is one of the three envelopes around the result. */
  lemma ParseOkIsWrapped(data: Json)
    requires ParseQuestionListResponse(data).Ok?
    ensures var qs := ParseQuestionListResponse(data).value;
      exists env, extra :: data == Wrap(env, qs, extra)
  {
    var qs := ParseQuestionListResponse(data).value;
    if data == JArr(qs) {
      assert data == Wrap(Bare, qs, map[]);
    } else if IsValidQuestionList(Field(data, "items")) {
      assert data.fields == data.fields["items" := JArr(qs)];
      assert data == Wrap(Paged, qs, data.fields);
    } else {
      assert data.fields == data.fields["questions" := JArr(qs)];
      assert data == Wrap(Legacy, qs, data.fields);
    }
  }

  // ---------------------------------------------------------------------------
  // Edge cases of the priority order
  // ---------------------------------------------------------------------------

  /** An empty array is a valid list (`every` holds vacuously) and yields no questions. */
  lemma EmptyArrayAccepted()
    ensures ParseQuestionListResponse(JArr([])) == Ok([])
  {
  }

  /** A bare array of valid questions is returned unchanged. */
  lemma BareArrayUnchanged(questions: seq<Json>)
    requires AllValid(questions)
    ensures ParseQuestionListResponse(JArr(questions)) == Ok(questions)
  {
  }

  /** One invalid element rejects a bare array outright (an array has no `items`
      or `questions` to fall back on). */
  lemma InvalidElementRejects(xs: seq<Json>, i: nat)
    requires i < |xs| && !IsValidQuestion(xs[i])
    ensures ParseQuestionListResponse(JArr(xs)) == Err(FormatError)
  {
  }

  /** When both `items` and `questions` are valid lists, `items` wins. */
  lemma ItemsWinsOverQuestions(fields: map<string, Json>)
    requires "items" in fields && "questions" in fields
    requires IsValidQuestionList(Some(fields["items"])) && IsValidQuestionList(Some(fields["questions"]))
    ensures ParseQuestionListResponse(JObj(fields)) == Ok(fields["items"].items)
  {
  }

  /** `questions` is used exactly when `items` is not a valid list. */
  lemma QuestionsOnlyAsFallback(fields: map<string, Json>)
    requires "questions" in fields && IsValidQuestionList(Some(fields["questions"]))
    ensures ParseQuestionListResponse(JObj(fields)) == Ok(fields["questions"].items)
            <==> !IsValidQuestionList(Field(JObj(fields), "items"))
                 || fields["items"] == fields["questions"]
  {
  }

  /** Fields other than `items` and `questions` (such as `total`) are never inspected. */
  lemma OtherFieldsIgnored(fields: map<string, Json>, name: string, value: Json)
    requires name != "items" && name != "questions"
    ensures ParseQuestionListResponse(JObj(fields[name := value]))
            == ParseQuestionListResponse(JObj(fields))
  {
    assert Field(JObj(fields[name := value]), "items") == Field(JObj(fields), "items");
    assert Field(JObj(fields[name := value]), "questions") == Field(JObj(fields), "questions");
  }

  /** Scalars and null match no envelope. */
  lemma ScalarsRejected(data: Json)
    requires data.JNull? || data.JBool? || data.JNum? || data.JStr?
    ensures ParseQuestionListResponse(data) == Err(FormatError)
  {
  }

  /** An object whose list sits under any other key (`{foo: [...]}`) is rejected. */
  lemma UnknownKeyRejected(questions: seq<Json>)
    ensures ParseQuestionListResponse(JObj(map["foo" := JArr(questions)])) == Err(FormatError)
  {
    assert "items" !in map["foo" := JArr(questions)];
    assert "questions" !in map["foo" := JArr(questions)];
  }
}

=== FILE: questions.dfy ===
/** The question and answer records the pages display (frontend/src/types/question.ts
    and answer.ts), with only the fields the page logic reads. */
module Questions {
  import opened Wrappers

  datatype Answer = Answer(id: int, content: string, createDate: string)

  /** `answers` is optional: the list endpoint omits it. */
  datatype Question = Question(
    id: int,
    subject: string,
    content: string,
    createDate: string,
    answers: Option<seq<Answer>>)
}

=== FILE: settings.dfy ===
/** The backend settings (config.py): values read from the process environment
    with their defaults, the CORS origin list, and the environment predicates. */
module Settings {
  import opened Wrappers
  import opened Text

  /** The process environment (`os.getenv`); an absent key falls back to the default. */
  type Environ = map<string, string>

  /** `os.getenv(key, default)`: a variable that is set, even to "", wins over the default. */
  function GetEnv(env: Environ, key: string, default: string): string {
    if key in env then env[key] else default
  }

  /** `os.getenv(key, "false").lower() == "true"`. */
  function Flag(env: Environ, key: string): (r: bool)
    ensures r <==> key in env && SpellsIgnoringCase(env[key], "true")
  {
    LowerIsTrue(GetEnv(env, key, "false"));
    Lower(GetEnv(env, key, "false")) == "true"
  }

  /** The `ALLOWED_ORIGINS` list: the raw value split on every comma, each piece
      stripped of surrounding whitespace. */
  function AllowedOrigins(raw: string): (origins: seq<string>)
    ensures |origins| == |Split(raw, ',')| == Count(raw, ',') + 1
    ensures forall i :: 0 <= i < |origins| ==> ',' !in origins[i]
    ensures forall i :: 0 <= i < |origins| ==>
      origins[i] == Trim(Split(raw, ',')[i], IsPyWhitespace)
  {
    var pieces := Split(raw, ',');
    SplitCount(raw, ',');
    var origins := seq(|pieces|, i requires 0 <= i < |pieces| => Trim(pieces[i], IsPyWhitespace));
    assert forall i :: 0 <= i < |origins| ==> ',' !in origins[i] by {
      forall i | 0 <= i < |origins| ensures ',' !in origins[i] {
        var start := TrimShape(pieces[i], IsPyWhitespace);
      }
    }
    origins
  }

  /** Origins written without spaces around the commas come back exactly as written. */
  lemma AllowedOriginsRoundTrip(origins: seq<string>)
    requires |origins| >= 1
    requires forall i :: 0 <= i < |origins| ==> ',' !in origins[i]
    requires forall i :: 0 <= i < |origins| ==>
      |origins[i]| == 0 || (!IsPyWhitespace(origins[i][0]) && !IsPyWhitespace(origins[i][|origins[i]| - 1]))
    ensures AllowedOrigins(Join(origins, ',')) == origins
  {
    SplitJoin(origins, ',');
    forall i | 0 <= i < |origins|
      ensures Trim(origins[i], IsPyWhitespace) == origins[i]
    {
      var o := origins[i];
      if |o| > 0 {
        assert TrimStart(o, IsPyWhitespace) == o;
      }
    }
  }

  /** The `Settings` class attributes modelled here. */
  datatype Config = Config(
    databaseUrl: string,
    debug: bool,
    environment: string,
    host: string,
    allowedOrigins: seq<string>,
    logLevel: string,
    secretKey: string,
    developerMode: bool,
    enableProfiling: bool)

  /** The settings read from the environment: each text setting is its variable
      when set (even to ""), else its default; each flag is on exactly when its
      variable spells "true" in any letter case; the origins come from
      `ALLOWED_ORIGINS`, by default only the local frontend. */
  function Load(env: Environ): (c: Config)
    ensures "SQLALCHEMY_DATABASE_URL" in env ==> c.databaseUrl == env["SQLALCHEMY_DATABASE_URL"]
    ensures "SQLALCHEMY_DATABASE_URL" !in env ==> c.databaseUrl == "sqlite:///./myapi.db"
    ensures "ENVIRONMENT" in env ==> c.environment == env["ENVIRONMENT"]
    ensures "ENVIRONMENT" !in env ==> c.environment == "development"
    ensures "HOST" in env ==> c.host == env["HOST"]
    ensures "HOST" !in env ==> c.host == "127.0.0.1"
    ensures "LOG_LEVEL" in env ==> c.logLevel == env["LOG_LEVEL"]
    ensures "LOG_LEVEL" !in env ==> c.logLevel == "INFO"
    ensures "SECRET_KEY" in env ==> c.secretKey == env["SECRET_KEY"]
    ensures "SECRET_KEY" !in env ==> c.secretKey == "dev-secret-key-change-this"
    ensures "ALLOWED_ORIGINS" in env ==> c.allowedOrigins == AllowedOrigins(env["ALLOWED_ORIGINS"])
    ensures "ALLOWED_ORIGINS" !in env ==> c.allowedOrigins == ["http://localhost:5173"]
    ensures c.debug <==> "DEBUG" in env && SpellsIgnoringCase(env["DEBUG"], "true")
    ensures c.developerMode <==> "DEVELOPER_MODE" in env && SpellsIgnoringCase(env["DEVELOPER_MODE"], "true")
    ensures c.enableProfiling <==> "ENABLE_PROFILING" in env && SpellsIgnoringCase(env["ENABLE_PROFILING"], "true")
  {
    DefaultOrigin();
    Config(
      GetEnv(env, "SQLALCHEMY_DATABASE_URL", "sqlite:///./myapi.db"),
      Flag(env, "DEBUG"),
      GetEnv(env, "ENVIRONMENT", "development"),
      GetEnv(env, "HOST", "127.0.0.1"),
      AllowedOrigins(GetEnv(env, "ALLOWED_ORIGINS", "http://localhost:5173")),
      GetEnv(env, "LOG_LEVEL", "INFO"),
      GetEnv(env, "SECRET_KEY", "dev-secret-key-change-this"),
      Flag(env, "DEVELOPER_MODE"),
      Flag(env, "ENABLE_PROFILING"))
  }

  /** `is_development`: the environment is "development" or "local". */
  predicate IsDevelopment(c: Config) {
    c.environment in ["development", "local"]
  }

  /** `is_production`. */
  predicate IsProduction(c: Config) {
    c.environment == "production"
  }

  lemma EnvironmentsExclusive(c: Config)
    ensures !(IsDevelopment(c) && IsProduction(c))
  {
  }

  /** Which environment the backend is in follows `ENVIRONMENT` alone: unset means
      development, and a variable set to "" is neither development nor production. */
  lemma EnvironmentFromVar(env: Environ)
    ensures IsDevelopment(Load(env)) <==>
      "ENVIRONMENT" !in env || env["ENVIRONMENT"] == "development" || env["ENVIRONMENT"] == "local"
    ensures IsProduction(Load(env)) <==> "ENVIRONMENT" in env && env["ENVIRONMENT"] == "production"
    ensures "ENVIRONMENT" in env && env["ENVIRONMENT"] == "" ==> !IsDevelopment(Load(env)) && !IsProduction(Load(env))
  {
    EnvironmentOf(env, Load(env));
  }

  lemma EnvironmentOf(env: Environ, c: Config)
    requires c.environment == GetEnv(env, "ENVIRONMENT", "development")
    ensures IsDevelopment(c) <==>
      "ENVIRONMENT" !in env || env["ENVIRONMENT"] == "development" || env["ENVIRONMENT"] == "local"
    ensures IsProduction(c) <==> "ENVIRONMENT" in env && env["ENVIRONMENT"] == "production"
    ensures "ENVIRONMENT" in env && env["ENVIRONMENT"] == "" ==> !IsDevelopment(c) && !IsProduction(c)
  {
  }

  /** Whether the configuration is printed at import: development and DEBUG. */
  function PrintsConfig(c: Config): (r: bool)
    ensures r ==> !IsProduction(c)
    ensures r <==> c.debug && (c.environment == "development" || c.environment == "local")
  {
    IsDevelopment(c) && c.debug
  }

  /** With no variables set the backend runs in development without DEBUG, so it
      prints nothing, and allows only the local frontend origin. */
  lemma DefaultSettings()
    ensures var c := Load(map[]);
      IsDevelopment(c) && !c.debug && !PrintsConfig(c) && c.allowedOrigins == ["http://localhost:5173"]
  {
    DefaultOrigin();
    var c := Load(map[]);
    assert GetEnv(map[], "ENVIRONMENT", "development") == "development";
    assert GetEnv(map[], "ALLOWED_ORIGINS", "http://localhost:5173") == "http://localhost:5173";
  }

  /** The default origin list holds just the local frontend. */
  lemma DefaultOrigin()
    ensures AllowedOrigins("http://localhost:5173") == ["http://localhost:5173"]
  {
    var origin := "http://localhost:5173";
    assert ',' !in origin;
    assert !IsPyWhitespace(origin[0]) && !IsPyWhitespace(origin[|origin| - 1]);
    AllowedOriginsRoundTrip([origin]);
  }
}

=== FILE: text.dfy ===
/** String helpers shared by the frontend (JavaScript) and backend (Python) models:
    case folding, whitespace trimming, splitting on a separator, and decimal
    conversion in both directions (including JavaScript's `parseInt`). */
module Text {
  import opened Wrappers

  // ---------------------------------------------------------------------------
  // Case folding
  // ---------------------------------------------------------------------------

  /** Lower-cases an ASCII capital letter and keeps every other character. */
  function LowerChar(c: char): char {
    if 'A' <= c <= 'Z' then (c as int + 32) as char else c
  }

  /** `toLowerCase()` (JavaScript) and `lower()` (Python), on ASCII letters. */
  function Lower(s: string): string {
    seq(|s|, i requires 0 <= i < |s| => LowerChar(s[i]))
  }

  /** `s` spells `word` (a lower-case ASCII word) with any mix of letter cases. */
  predicate SpellsIgnoringCase(s: string, word: string) {
    |s| == |word| && forall i :: 0 <= i < |s| ==> s[i] == word[i] || s[i] == UpperChar(word[i])
  }

  /** The capital of a lower-case ASCII letter; every other character is kept. */
  function UpperChar(c: char): char {
    if 'a' <= c <= 'z' then (c as int - 32) as char else c
  }

  /** Lower-casing yields "true" exactly for the case variants of "true"
      ("true", "TRUE", "True", "tRuE", ...). */
  lemma LowerIsTrue(s: string)
    ensures Lower(s) == "true" <==> SpellsIgnoringCase(s, "true")
  {
    if SpellsIgnoringCase(s, "true") {
      assert forall i :: 0 <= i < 4 ==> Lower(s)[i] == "true"[i];
    }
    if Lower(s) == "true" {
      assert forall i :: 0 <= i < 4 ==> LowerChar(s[i]) == "true"[i];
    }
  }

  // ---------------------------------------------------------------------------
  // Whitespace and trimming
  // ---------------------------------------------------------------------------

  /** The characters JavaScript's `String.prototype.trim` removes: the
      ECMAScript WhiteSpace and LineTerminator code points. */
  predicate IsJsWhitespace(c: char) {
    c == '\t' || c == '\n' || c == '\U{000B}' || c == '\U{000C}' || c == '\r' || c == ' '
    || c == '\U{00A0}' || c == '\U{1680}' || ('\U{2000}' <= c <= '\U{200A}')
    || c == '\U{2028}' || c == '\U{2029}' || c == '\U{202F}' || c == '\U{205F}'
    || c == '\U{3000}' || c == '\U{FEFF}'
  }

  /** The characters Python's `str.strip()` removes (those for which `str.isspace` holds). */
  predicate IsPyWhitespace(c: char) {
    ('\t' <= c <= '\r') || ('\U{001C}' <= c <= '\U{001F}') || c == ' '
    || c == '\U{0085}' || c == '\U{00A0}' || c == '\U{1680}' || ('\U{2000}' <= c <= '\U{200A}')
    || c == '\U{2028}' || c == '\U{2029}' || c == '\U{202F}' || c == '\U{205F}' || c == '\U{3000}'
  }

  /** Drops the longest prefix of characters satisfying `ws`. */
  function TrimStart(s: string, ws: char -> bool): (r: string)
    ensures |r| <= |s| && r == s[|s| - |r|..]
    ensures forall k :: 0 <= k < |s| - |r| ==> ws(s[k])
    ensures |r| > 0 ==> !ws(r[0])
    decreases |s|
  {
    if |s| > 0 && ws(s[0]) then
      var r := TrimStart(s[1..], ws);
      assert s[1..][|s| - 1 - |r|..] == s[|s| - |r|..];
      r
    else s
  }

  /** Drops the longest suffix of characters satisfying `ws`. */
  function TrimEnd(s: string, ws: char -> bool): (r: string)
    ensures |r| <= |s| && r == s[..|r|]
    ensures forall k :: |r| <= k < |s| ==> ws(s[k])
    ensures |r| > 0 ==> !ws(r[|r| - 1])
    decreases |s|
  {
    if |s| > 0 && ws(s[|s| - 1]) then
      var r := TrimEnd(s[..|s| - 1], ws);
      assert s[..|s| - 1][..|r|] == s[..|r|];
      r
    else s
  }

  /** Drops whitespace (as judged by `ws`) from both ends. */
  function Trim(s: string, ws: char -> bool): string {
    TrimEnd(TrimStart(s, ws), ws)
  }

  /** Every character of `s` is whitespace (vacuously so for the empty string). */
  predicate AllWhitespace(s: string, ws: char -> bool) {
    forall k :: 0 <= k < |s| ==> ws(s[k])
  }

  /** `r` is the piece of `s` that starts at index `i`. */
  predicate SliceAt(s: string, i: nat, r: string) {
    i + |r| <= |s| && forall k :: 0 <= k < |r| ==> r[k] == s[i + k]
  }

  /** Every character of `s` from index `lo` up to (not including) `hi` is whitespace. */
  predicate WhitespaceBetween(s: string, lo: int, hi: int, ws: char -> bool) {
    forall k :: 0 <= lo <= k < hi <= |s| ==> ws(s[k])
  }

  /** `r` neither starts nor ends with whitespace. */
  predicate NoEdgeWhitespace(r: string, ws: char -> bool) {
    |r| > 0 ==> !ws(r[0]) && !ws(r[|r| - 1])
  }

  /** The trimmed string is the piece of the input starting after the leading
      whitespace, with only whitespace removed on either side and none left at either end. */
  lemma TrimShape(s: string, ws: char -> bool) returns (i: nat)
    ensures var r := Trim(s, ws);
      && SliceAt(s, i, r)
      && WhitespaceBetween(s, 0, i, ws) && WhitespaceBetween(s, i + |r|, |s|, ws)
      && NoEdgeWhitespace(r, ws)
  {
    var t := TrimStart(s, ws);
    var r := TrimEnd(t, ws);
    assert r == Trim(s, ws);
    TrimPieces(s, t, r, ws);
    i := |s| - |t|;
  }

  /** The shape of a trim, from what each of the two passes guarantees. */
  lemma TrimPieces(s: string, t: string, r: string, ws: char -> bool)
    requires |t| <= |s| && t == s[|s| - |t|..]
    requires forall k :: 0 <= k < |s| - |t| ==> ws(s[k])
    requires |t| > 0 ==> !ws(t[0])
    requires |r| <= |t| && r == t[..|r|]
    requires forall k :: |r| <= k < |t| ==> ws(t[k])
    requires |r| > 0 ==> !ws(r[|r| - 1])
    ensures var i := |s| - |t|;
      && SliceAt(s, i, r)
      && WhitespaceBetween(s, 0, i, ws) && WhitespaceBetween(s, i + |r|, |s|, ws)
      && NoEdgeWhitespace(r, ws)
  {
    var i := |s| - |t|;
    forall k | i + |r| <= k < |s|
      ensures ws(s[k])
    {
      assert s[k] == t[k - i];
    }
    if |r| > 0 {
      assert r[0] == t[0];
    }
  }

  /** A string trims to nothing exactly when it consists of whitespace only. */
  lemma TrimEmptyIffBlank(s: string, ws: char -> bool)
    ensures Trim(s, ws) == "" <==> AllWhitespace(s, ws)
  {
    var t := TrimStart(s, ws);
    if Trim(s, ws) == "" && |t| > 0 {
      assert false;
    }
  }

  // ---------------------------------------------------------------------------
  // Splitting and joining on a separator character
  // ---------------------------------------------------------------------------

  /** Concatenates `parts`, putting one `sep` between neighbours. */
  function Join(parts: seq<string>, sep: char): string
    requires |parts| >= 1
  {
    if |parts| == 1 then parts[0] else parts[0] + [sep] + Join(parts[1..], sep)
  }

  /** Python's `s.split(sep)` for a one-character separator: the maximal pieces
      between separators, empty pieces included. */
  function Split(s: string, sep: char): (r: seq<string>)
    ensures |r| >= 1
    ensures forall i :: 0 <= i < |r| ==> sep !in r[i]
    ensures Join(r, sep) == s
    decreases |s|
  {
    if s == [] then [[]]
    else
      var rest := Split(s[1..], sep);
      if s[0] == sep then
        [[]] + rest
      else
        var r := [[s[0]] + rest[0]] + rest[1..];
        assert Join(r, sep) == [s[0]] + Join(rest, sep) by {
          assert r[1..] == rest[1..];
        }
        assert s == [s[0]] + s[1..];
        r
  }

  // ---------------------------------------------------------------------------
  // Substrings
  // ---------------------------------------------------------------------------

  /** Python's `needle in s` on strings: `needle` occurs somewhere in `s`. */
  predicate Contains(s: string, needle: string)
    decreases |s|
  {
    |needle| <= |s| && (s[..|needle|] == needle || Contains(s[1..], needle))
  }

  /** An occurrence at any position makes `Contains` hold. */
  lemma {:induction false} ContainsAt(s: string, needle: string, i: nat)
    requires i + |needle| <= |s| && s[i..i + |needle|] == needle
    ensures Contains(s, needle)
    decreases i
  {
    if i > 0 {
      assert s[1..][i - 1..i - 1 + |needle|] == s[i..i + |needle|];
      ContainsAt(s[1..], needle, i - 1);
    }
  }

  /** And `Contains` holds only through such an occurrence. */
  lemma {:induction false} ContainsWitness(s: string, needle: string) returns (i: nat)
    requires Contains(s, needle)
    ensures i + |needle| <= |s| && s[i..i + |needle|] == needle
    decreases |s|
  {
    if s[..|needle|] == needle {
      i := 0;
    } else {
      var j := ContainsWitness(s[1..], needle);
      assert s[1..][j..j + |needle|] == s[j + 1..j + 1 + |needle|];
      i := j + 1;
    }
  }

  /** The number of occurrences of `c` in `s`. */
  function Count(s: string, c: char): nat {
    if s == [] then 0 else (if s[0] == c then 1 else 0) + Count(s[1..], c)
  }

  /** Splitting yields one more piece than there are separators. */
  lemma {:induction false} SplitCount(s: string, sep: char)
    ensures |Split(s, sep)| == Count(s, sep) + 1
    decreases |s|
  {
    if s != [] {
      SplitCount(s[1..], sep);
    }
  }

  /** Splitting undoes joining when no piece contains the separator. */
  lemma {:induction false} SplitJoin(parts: seq<string>, sep: char)
    requires |parts| >= 1
    requires forall i :: 0 <= i < |parts| ==> sep !in parts[i]
    ensures Split(Join(parts, sep), sep) == parts
    decreases |Join(parts, sep)|
  {
    var s := Join(parts, sep);
    if parts[0] == [] {
      if |parts| > 1 {
        assert s[1..] == Join(parts[1..], sep);
        SplitJoin(parts[1..], sep);
        assert parts == [[]] + parts[1..];
      }
    } else {
      var p0 := parts[0];
      var tail := [p0[1..]] + parts[1..];
      JoinDropFirst(parts, sep);
      assert forall i :: 0 <= i < |tail| ==> sep !in tail[i] by {
        assert forall c :: c in p0[1..] ==> c in p0;
        assert forall i :: 1 <= i < |tail| ==> tail[i] == parts[i];
      }
      SplitJoin(tail, sep);
      assert [p0[0]] + p0[1..] == p0;
      assert parts == [[p0[0]] + tail[0]] + tail[1..];
    }
  }

  /** Dropping the first character of a join whose first piece is non-empty drops
      it from that piece; and that character is not the separator. */
  lemma JoinDropFirst(parts: seq<string>, sep: char)
    requires |parts| >= 1 && |parts[0]| > 0 && sep !in parts[0]
    ensures Join([parts[0][1..]] + parts[1..], sep) == Join(parts, sep)[1..]
    ensures Join(parts, sep)[0] == parts[0][0] != sep
  {
    var p0 := parts[0];
    var tail := [p0[1..]] + parts[1..];
    assert p0[0] in p0;
    if |parts| > 1 {
      assert tail[1..] == parts[1..];
    }
  }


  // ---------------------------------------------------------------------------
  // Decimal numerals
  // ---------------------------------------------------------------------------

  /** The value of an alphanumeric digit (0-9, then a/A = 10 up to z/Z = 35); 36 for anything else. */
  function DigitValue(c: char): nat {
    if '0' <= c <= '9' then c as int - '0' as int
    else if 'a' <= c <= 'z' then c as int - 'a' as int + 10
    else if 'A' <= c <= 'Z' then c as int - 'A' as int + 10
    else 36
  }

  predicate IsDigitIn(c: char, radix: nat) {
    DigitValue(c) < radix
  }

  /** The value of a numeral in the given radix, most significant digit first; only
      meaningful when every character is a digit in `radix`. */
  function NumeralValue(s: string, radix: nat): nat {
    if s == [] then 0 else NumeralValue(s[..|s| - 1], radix) * radix + DigitValue(s[|s| - 1])
  }

  /** The decimal digit character for `d`. */
  function DigitChar(d: nat): char
    requires d < 10
  {
    ('0' as int + d) as char
  }

  /** The decimal numeral of a natural number, without leading zeros
      (JavaScript's `String(n)` and template-literal interpolation for integers). */
  function NatToString(n: nat): (r: string)
    ensures |r| >= 1
    ensures forall k :: 0 <= k < |r| ==> IsDigitIn(r[k], 10)
    ensures r[0] == '0' ==> r == "0"
  {
    if n < 10 then [DigitChar(n)] else NatToString(n / 10) + [DigitChar(n % 10)]
  }

  /** `Number.MAX_SAFE_INTEGER`, 2^53 - 1: up to this magnitude a JavaScript number
      holds every integer exactly and prints it without an exponent. */
  const MaxSafeInteger := 9007199254740991

  predicate IsSafeInteger(i: int) {
    -MaxSafeInteger <= i <= MaxSafeInteger
  }

  /** A possibly negative integer as a decimal numeral. */
  function IntToString(i: int): string {
    if i < 0 then "-" + NatToString(-i) else NatToString(i)
  }

  /** Reading back a decimal numeral gives the number written. */
  lemma {:induction false} NatToStringValue(n: nat)
    ensures NumeralValue(NatToString(n), 10) == n
  {
    if n >= 10 {
      var s := NatToString(n);
      assert s[..|s| - 1] == NatToString(n / 10);
      NatToStringValue(n / 10);
    }
  }

  /** Numerals of distinct numbers are distinct. */
  lemma NatToStringInjective(m: nat, n: nat)
    requires NatToString(m) == NatToString(n)
    ensures m == n
  {
    NatToStringValue(m);
    NatToStringValue(n);
  }

  /** The length of the longest prefix of `s` made of digits in `radix`. */
  function DigitPrefix(s: string, radix: nat): (n: nat)
    ensures n <= |s|
    ensures forall k :: 0 <= k < n ==> IsDigitIn(s[k], radix)
    ensures n < |s| ==> !IsDigitIn(s[n], radix)
    decreases |s|
  {
    if |s| > 0 && IsDigitIn(s[0], radix) then 1 + DigitPrefix(s[1..], radix) else 0
  }

  /** The run of digits `parseInt` reads and its radix, after leading whitespace and
      an optional sign: a `0x`/`0X` prefix selects radix 16, otherwise radix 10. */
  function DigitsAfterSign(t: string): (string, nat) {
    var body := if |t| > 0 && (t[0] == '-' || t[0] == '+') then t[1..] else t;
    if |body| >= 2 && body[0] == '0' && (body[1] == 'x' || body[1] == 'X')
    then (body[2..], 16) else (body, 10)
  }

  /** The value of the longest run of digits at the start of `digits`; `None` when there is none. */
  function ReadDigits(digits: string, radix: nat): Option<nat> {
    var n := DigitPrefix(digits, radix);
    if n == 0 then None else Some(NumeralValue(digits[..n], radix))
  }

  /** JavaScript's one-argument `parseInt`: skip leading whitespace, read an optional
      sign and radix prefix, then the longest run of digits; `None` stands for NaN
      (no digit found). Whatever follows the digits is ignored. */
  function ParseInt(s: string): Option<int> {
    var t := TrimStart(s, IsJsWhitespace);
    var (digits, radix) := DigitsAfterSign(t);
    match ReadDigits(digits, radix)
    case None => None
    case Some(v) => Some(if |t| > 0 && t[0] == '-' then -(v as int) else v as int)
  }

  /** The characters that may follow a numeral without changing how `parseInt`
      reads it: anything but a decimal digit, and after a lone `0` anything but
      the `x` or `X` that would turn it into a hexadecimal prefix. */
  predicate EndsNumeral(n: nat, rest: string) {
    |rest| > 0 ==> !IsDigitIn(rest[0], 10) && !(n == 0 && (rest[0] == 'x' || rest[0] == 'X'))
  }

  /** A decimal numeral followed by a character that ends it reads back as its
      value: no whitespace to skip, no sign, no radix prefix. */
  lemma ReadDecimal(n: nat, rest: string)
    requires EndsNumeral(n, rest)
    ensures var s := NatToString(n) + rest;
      TrimStart(s, IsJsWhitespace) == s && DigitsAfterSign(s) == (s, 10)
      && ReadDigits(s, 10) == Some(n)
  {
    var d := NatToString(n);
    var s := d + rest;
    assert s[0] == d[0];
    assert '0' <= s[0] <= '9';
    assert !IsJsWhitespace(s[0]);
    assert DigitsAfterSign(s) == (s, 10) by {
      if |s| >= 2 && s[0] == '0' {
        assert d == "0";
        NatToStringValue(n);
        assert s[1] == rest[0];
      }
    }
    ReadDigitsOfNumeral(n, rest);
  }

  lemma ReadDigitsOfNumeral(n: nat, rest: string)
    requires |rest| > 0 ==> !IsDigitIn(rest[0], 10)
    ensures ReadDigits(NatToString(n) + rest, 10) == Some(n)
  {
    var d := NatToString(n);
    NatToStringValue(n);
    DigitPrefixOfDigits(d, rest, 10);
    assert (d + rest)[..|d|] == d;
  }

  /** A numeral starts with a decimal digit. */
  lemma NumeralHead(n: nat)
    ensures '0' <= NatToString(n)[0] <= '9'
  {
  }

  /** `parseInt` of a minus sign before a numeral it reads as `n`. */
  lemma ParseIntNegated(d: string, n: nat)
    requires |d| > 0 && '0' <= d[0] <= '9'
    requires DigitsAfterSign(d) == (d, 10) && ReadDigits(d, 10) == Some(n)
    ensures ParseInt("-" + d) == Some(-(n as int))
  {
    var s := "-" + d;
    assert s[1..] == d;
    assert TrimStart(s, IsJsWhitespace) == s by {
      assert !IsJsWhitespace(s[0]);
    }
    assert DigitsAfterSign(s) == (d, 10);
  }

  /** `parseInt` reads back every safe integer written in decimal. */
  lemma ParseIntOfDecimal(i: int)
    requires IsSafeInteger(i)
    ensures ParseInt(IntToString(i)) == Some(i)
  {
    if i < 0 {
      var d := NatToString(-i);
      ReadDecimal(-i, "");
      assert d + "" == d;
      NumeralHead(-i);
      ParseIntNegated(d, -i);
      assert IntToString(i) == "-" + d;
    } else {
      ReadDecimal(i, "");
      assert IntToString(i) == NatToString(i) + "";
    }
  }

  /** The default id `"0"` reads as 0. */
  lemma ParseIntOfZero()
    ensures ParseInt("0") == Some(0)
  {
    ParseIntOfDecimal(0);
    assert IntToString(0) == "0";
  }

  /** `parseInt` stops at the first character that is not a decimal digit and
      ignores it and what follows (`parseInt("12px")` is 12); only `0x` or `0X`
      at the start reads differently, as a hexadecimal prefix. */
  lemma ParseIntIgnoresSuffix(n: nat, rest: string)
    requires n <= MaxSafeInteger
    requires EndsNumeral(n, rest)
    ensures ParseInt(NatToString(n) + rest) == Some(n)
  {
    ReadDecimal(n, rest);
    var s := NatToString(n) + rest;
    NumeralHead(n);
    assert s[0] == NatToString(n)[0];
    ParseIntUnsigned(s, n);
  }

  /** `parseInt` of a string that starts with a digit and whose digits it reads as `n`. */
  lemma ParseIntUnsigned(s: string, n: nat)
    requires |s| > 0 && '0' <= s[0] <= '9'
    requires TrimStart(s, IsJsWhitespace) == s && DigitsAfterSign(s) == (s, 10)
    requires ReadDigits(s, 10) == Some(n)
    ensures ParseInt(s) == Some(n)
  {
  }

  /** A prefix of digits followed by a non-digit is exactly the digit prefix. */
  lemma {:induction false} DigitPrefixOfDigits(d: string, rest: string, radix: nat)
    requires forall k :: 0 <= k < |d| ==> IsDigitIn(d[k], radix)
    requires |rest| > 0 ==> !IsDigitIn(rest[0], radix)
    ensures DigitPrefix(d + rest, radix) == |d|
    decreases |d|
  {
    if |d| > 0 {
      assert (d + rest)[1..] == d[1..] + rest;
      DigitPrefixOfDigits(d[1..], rest, radix);
    }
  }

  // ---------------------------------------------------------------------------
  // Python's int()
  // ---------------------------------------------------------------------------

  predicate AllDigits(s: string) {
    forall k :: 0 <= k < |s| ==> IsDigitIn(s[k], 10)
  }

  /** CPython's default limit on the number of digits `int` converts from a
      decimal string (`sys.int_info.default_max_str_digits`). */
  const MaxStrDigits := 4300

  /** Python's `int(s)` on a string: optional surrounding whitespace, an optional
      sign, then one to `MaxStrDigits` decimal digits and nothing else; `None`
      stands for the `ValueError` anything else raises. */
  function PyInt(s: string): (r: Option<int>)
    ensures r.Some? ==> Trim(s, IsPyWhitespace) != ""
  {
    var t := Trim(s, IsPyWhitespace);
    var body := if |t| > 0 && (t[0] == '-' || t[0] == '+') then t[1..] else t;
    if |body| > 0 && AllDigits(body) && |body| <= MaxStrDigits then
      var v := NumeralValue(body, 10) as int;
      Some(if t[0] == '-' then -v else v)
    else None
  }

  /** A string with no whitespace at either end trims to itself. */
  lemma TrimNoEdges(s: string, ws: char -> bool)
    requires |s| > 0 && !ws(s[0]) && !ws(s[|s| - 1])
    ensures TrimStart(s, ws) == s && Trim(s, ws) == s
  {
  }

  /** `int` of a run of decimal digits. */
  lemma PyIntOfDigits(d: string)
    requires 0 < |d| <= MaxStrDigits && AllDigits(d)
    ensures PyInt(d) == Some(NumeralValue(d, 10) as int)
  {
    assert IsDigitIn(d[0], 10) && IsDigitIn(d[|d| - 1], 10);
    TrimNoEdges(d, IsPyWhitespace);
    assert d[0] != '-' && d[0] != '+';
  }

  /** `int` of a minus sign followed by a run of decimal digits. */
  lemma PyIntOfNegatedDigits(d: string)
    requires 0 < |d| <= MaxStrDigits && AllDigits(d)
    ensures PyInt("-" + d) == Some(-(NumeralValue(d, 10) as int))
  {
    var s := "-" + d;
    assert s[0] == '-' && s[1..] == d;
    assert s[|s| - 1] == d[|d| - 1] && IsDigitIn(d[|d| - 1], 10);
    TrimNoEdges(s, IsPyWhitespace);
    PyIntOfSigned(s, d);
  }

  lemma PyIntOfSigned(s: string, d: string)
    requires |s| > 0 && s[0] == '-' && s[1..] == d && 0 < |d| <= MaxStrDigits && AllDigits(d)
    requires Trim(s, IsPyWhitespace) == s
    ensures PyInt(s) == Some(-(NumeralValue(d, 10) as int))
  {
  }

  /** `int` reads back every integer written in decimal with at most
      `MaxStrDigits` digits. */
  lemma PyIntOfDecimal(i: int)
    requires |NatToString(if i < 0 then -i else i)| <= MaxStrDigits
    ensures PyInt(IntToString(i)) == Some(i)
  {
    var n: nat := if i < 0 then -i else i;
    NatToStringValue(n);
    if i < 0 {
      PyIntOfNegatedDigits(NatToString(n));
    } else {
      PyIntOfDigits(NatToString(n));
    }
  }

  /** Unlike `parseInt`, `int` refuses a numeral followed by anything but whitespace. */
  lemma PyIntRejectsSuffix(n: nat, rest: string)
    requires |rest| > 0 && EndsNumeral(n, rest) && !IsPyWhitespace(rest[0])
    ensures n <= MaxSafeInteger ==> ParseInt(NatToString(n) + rest) == Some(n)
    ensures PyInt(NatToString(n) + rest) == None
  {
    if n <= MaxSafeInteger {
      ParseIntIgnoresSuffix(n, rest);
    }
    var s := NatToString(n) + rest;
    var d := NatToString(n);
    var t := SuffixSurvivesTrim(d, rest);
    assert t[0] == d[0] && IsDigitIn(d[0], 10);
    assert t[0] != '-' && t[0] != '+';
    assert !AllDigits(t) by {
      assert !IsDigitIn(t[|d|], 10);
    }
  }

  /** `int` refuses a run of more than `MaxStrDigits` digits, signed or not. */
  lemma PyIntRejectsLongNumeral(d: string)
    requires |d| > MaxStrDigits && AllDigits(d)
    ensures PyInt(d) == None
    ensures PyInt("-" + d) == None
  {
    assert IsDigitIn(d[0], 10) && IsDigitIn(d[|d| - 1], 10);
    TrimNoEdges(d, IsPyWhitespace);
    PyIntOfLongBody(d, d);
    var s := "-" + d;
    assert s[0] == '-' && s[1..] == d;
    assert s[|s| - 1] == d[|d| - 1];
    TrimNoEdges(s, IsPyWhitespace);
    PyIntOfLongBody(s, d);
  }

  /** A trimmed string whose digits after an optional sign are too many reads as nothing. */
  lemma PyIntOfLongBody(s: string, d: string)
    requires Trim(s, IsPyWhitespace) == s && |d| > MaxStrDigits
    requires s == d || (|s| > 0 && s[0] == '-' && s[1..] == d)
    requires |d| > 0 && d[0] != '-' && d[0] != '+'
    ensures PyInt(s) == None
  {
  }

  /** Trimming a string that starts and continues past `d` with non-whitespace keeps
      `d` and the character after it. */
  lemma SuffixSurvivesTrim(d: string, rest: string) returns (t: string)
    requires |d| > 0 && |rest| > 0 && !IsPyWhitespace(d[0]) && !IsPyWhitespace(rest[0])
    ensures t == Trim(d + rest, IsPyWhitespace)
    ensures |t| > |d| && t[..|d|] == d && t[|d|] == rest[0]
  {
    var s := d + rest;
    assert TrimStart(s, IsPyWhitespace) == s;
    t := TrimEnd(s, IsPyWhitespace);
    assert s[|d|] == rest[0];
    assert |d| < |t|;
    assert t[..|d|] == s[..|d|] == d;
  }
}

=== FILE: unicode.dfy ===
/** Byte- and code-unit-level views of strings. A Dafny `string` is a sequence of
    Unicode scalar values; Python measures `str.encode('utf-8')` in bytes and
    JavaScript measures `.length` and `substring` in UTF-16 code units. */
module Unicode {

  type Byte = x: int | 0 <= x < 0x100
  type CodeUnit = x: int | 0 <= x < 0x1_0000

  /** The UTF-8 encoding of one scalar value (1 to 4 bytes). */
  function Utf8Char(c: char): (b: seq<Byte>)
    ensures 1 <= |b| <= 4
    ensures |b| == 1 <==> c as int < 0x80
  {
    var v := c as int;
    if v < 0x80 then [v]
    else if v < 0x800 then [0xC0 + v / 0x40, 0x80 + v % 0x40]
    else if v < 0x1_0000 then [0xE0 + v / 0x1000, 0x80 + (v / 0x40) % 0x40, 0x80 + v % 0x40]
    else [0xF0 + v / 0x4_0000, 0x80 + (v / 0x1000) % 0x40, 0x80 + (v / 0x40) % 0x40, 0x80 + v % 0x40]
  }

  /** Python's `s.encode('utf-8')`. */
  function Utf8(s: string): (b: seq<Byte>)
    ensures |s| <= |b| <= 4 * |s|
  {
    if s == [] then [] else Utf8Char(s[0]) + Utf8(s[1..])
  }

  /** Encoding distributes over concatenation. */
  lemma {:induction false} Utf8Append(s: string, t: string)
    ensures Utf8(s + t) == Utf8(s) + Utf8(t)
  {
    if s != [] {
      assert (s + t)[0] == s[0];
      assert (s + t)[1..] == s[1..] + t;
      Utf8Append(s[1..], t);
      calc {
        Utf8(s + t);
        Utf8Char(s[0]) + Utf8(s[1..] + t);
        Utf8Char(s[0]) + (Utf8(s[1..]) + Utf8(t));
        (Utf8Char(s[0]) + Utf8(s[1..])) + Utf8(t);
      }
    } else {
      assert s + t == t;
    }
  }

  predicate IsAscii(s: string) {
    forall k :: 0 <= k < |s| ==> s[k] as int < 0x80
  }

  /** An ASCII string encodes to one byte per character, each equal to the character's code. */
  lemma {:induction false} Utf8Ascii(s: string)
    requires IsAscii(s)
    ensures |Utf8(s)| == |s|
    ensures forall k :: 0 <= k < |s| ==> Utf8(s)[k] == s[k] as int
  {
    if s != [] {
      Utf8Ascii(s[1..]);
    }
  }

  /** The number of bytes a UTF-8 sequence led by byte `b` occupies (0 for a continuation byte). */
  function SequenceLength(b: Byte): nat {
    if b < 0x80 then 1 else if b < 0xC0 then 0 else if b < 0xE0 then 2 else if b < 0xF0 then 3 else 4
  }

  /** The lead byte of a character's encoding announces the encoding's length. */
  lemma LeadByteLength(c: char)
    ensures SequenceLength(Utf8Char(c)[0]) == |Utf8Char(c)|
  {
  }

  /** Decodes one well-formed UTF-8 sequence of 1 to 4 bytes back to its scalar value. */
  function DecodeChar(b: seq<Byte>): int
    requires 1 <= |b| <= 4
  {
    var b0, b1 := b[0] as int, if |b| > 1 then b[1] as int else 0;
    if |b| == 1 then b0
    else if |b| == 2 then (b0 - 0xC0) * 0x40 + (b1 - 0x80)
    else if |b| == 3 then (b0 - 0xE0) * 0x1000 + (b1 - 0x80) * 0x40 + (b[2] as int - 0x80)
    else (b0 - 0xF0) * 0x4_0000 + (b1 - 0x80) * 0x1000 + (b[2] as int - 0x80) * 0x40 + (b[3] as int - 0x80)
  }

  lemma DecodeEncodeChar(c: char)
    ensures DecodeChar(Utf8Char(c)) == c as int
  {
    var v := c as int;
    if v >= 0x1_0000 {
      FourByteDigits(v);
    } else if v >= 0x800 {
      ThreeByteDigits(v);
    }
  }

  /** A value below 2^18 is its three base-64 digits above 2^12, 2^6 and 1. */
  lemma ThreeByteDigits(v: int)
    requires 0 <= v
    ensures (v / 0x1000) * 0x1000 + ((v / 0x40) % 0x40) * 0x40 + v % 0x40 == v
  {
    var w := v % 0x1000;
    assert v == (v / 0x1000) * 0x1000 + w;
    assert (v / 0x40) % 0x40 == w / 0x40;
    assert v % 0x40 == w % 0x40;
    assert w == (w / 0x40) * 0x40 + w % 0x40;
  }

  /** Quotient and remainder by 2^6 are the unique ones. */
  lemma DivMod64(x: int, q: int, r: int)
    requires x == q * 0x40 + r && 0 <= r < 0x40
    ensures x / 0x40 == q && x % 0x40 == r
  {
  }

  /** Quotient and remainder by 2^12 are the unique ones. */
  lemma DivMod4096(x: int, q: int, r: int)
    requires x == q * 0x1000 + r && 0 <= r < 0x1000
    ensures x / 0x1000 == q && x % 0x1000 == r
  {
  }

  /** Adding a multiple of 2^18 leaves the low three base-64 digits alone. */
  lemma HighDigits(a: int, r: int)
    requires 0 <= a && 0 <= r < 0x4_0000
    ensures var v := a * 0x4_0000 + r;
      && (v / 0x1000) % 0x40 == r / 0x1000
      && (v / 0x40) % 0x40 == (r / 0x40) % 0x40
      && v % 0x40 == r % 0x40
  {
    var v := a * 0x4_0000 + r;
    var q1, s1 := r / 0x1000, r % 0x1000;
    DivMod4096(v, a * 0x40 + q1, s1);
    DivMod64(a * 0x40 + q1, a, q1);
    var q2, s2 := r / 0x40, r % 0x40;
    DivMod64(v, a * 0x1000 + q2, s2);
    DivMod64(a * 0x1000 + q2, a * 0x40 + q2 / 0x40, q2 % 0x40);
  }

  /** The same, one base-64 digit further up. */
  lemma FourByteDigits(v: int)
    requires 0 <= v
    ensures (v / 0x4_0000) * 0x4_0000 + ((v / 0x1000) % 0x40) * 0x1000
            + ((v / 0x40) % 0x40) * 0x40 + v % 0x40 == v
  {
    var a, r := v / 0x4_0000, v % 0x4_0000;
    assert v == a * 0x4_0000 + r;
    HighDigits(a, r);
    ThreeByteDigits(r);
  }

  /** Different characters have different encodings. */
  lemma Utf8CharInjective(c: char, d: char)
    requires Utf8Char(c) == Utf8Char(d)
    ensures c == d
  {
    DecodeEncodeChar(c);
    DecodeEncodeChar(d);
  }

  /** UTF-8 encoding loses nothing: different strings have different encodings. */
  lemma {:induction false} Utf8Injective(s: string, t: string)
    requires Utf8(s) == Utf8(t)
    ensures s == t
  {
    if s != [] && t != [] {
      var bs, bt := Utf8Char(s[0]), Utf8Char(t[0]);
      assert Utf8(s)[0] == bs[0] && Utf8(t)[0] == bt[0];
      LeadByteLength(s[0]);
      LeadByteLength(t[0]);
      assert |bs| == |bt|;
      assert bs == Utf8(s)[..|bs|] && bt == Utf8(t)[..|bt|];
      Utf8CharInjective(s[0], t[0]);
      assert Utf8(s[1..]) == Utf8(s)[|bs|..];
      Utf8Injective(s[1..], t[1..]);
      assert s == [s[0]] + s[1..] && t == [t[0]] + t[1..];
    }
  }

  /** The UTF-16 encoding of one scalar value: one code unit, or a surrogate pair above U+FFFF. */
  function Utf16Char(c: char): (u: seq<CodeUnit>)
    ensures |u| == (if c as int < 0x1_0000 then 1 else 2)
  {
    var v := c as int;
    if v < 0x1_0000 then [v]
    else [0xD800 + (v - 0x1_0000) / 0x400, 0xDC00 + (v - 0x1_0000) % 0x400]
  }

  /** The code units a JavaScript string holds for `s`. */
  function Utf16(s: string): (u: seq<CodeUnit>)
    ensures |s| <= |u| <= 2 * |s|
    ensures u == [] <==> s == []
  {
    if s == [] then [] else Utf16Char(s[0]) + Utf16(s[1..])
  }

  /** Encoding distributes over concatenation. */
  lemma {:induction false} Utf16Append(s: string, t: string)
    ensures Utf16(s + t) == Utf16(s) + Utf16(t)
  {
    if s != [] {
      assert (s + t)[0] == s[0];
      assert (s + t)[1..] == s[1..] + t;
      Utf16Append(s[1..], t);
    } else {
      assert s + t == t;
    }
  }

  /** JavaScript's `s.length`. */
  function JsLength(s: string): nat {
    |Utf16(s)|
  }

  /** Within the Basic Multilingual Plane a JavaScript length counts characters. */
  lemma {:induction false} JsLengthBmp(s: string)
    requires forall k :: 0 <= k < |s| ==> s[k] as int < 0x1_0000
    ensures JsLength(s) == |s|
    ensures forall k :: 0 <= k < |s| ==> Utf16(s)[k] == s[k] as int
  {
    if s != [] {
      JsLengthBmp(s[1..]);
    }
  }
}

=== FILE: user_create_page.dfy ===
/** The registration page controller (frontend/src/pages/UserCreate.tsx): field
    edits, the pre-submit checks, the single request, and its outcome. */
module UserCreatePage {
  import opened Wrappers
  import opened Unicode
  import opened ErrorView
  import opened PageCommon

  const MismatchMessage := "비밀번호가 일치하지 않습니다."
  const TooShortMessage := "비밀번호는 최소 4자리 이상이어야 합니다."
  const FailureFallback := "회원 가입에 실패했습니다."
  const DoneMessage := "회원가입이 완료되었습니다. 로그인해주세요."
  /** The minimum password length, in JavaScript string length. */
  const MinPasswordLength := 4

  datatype Form = Form(username: string, password1: string, password2: string, email: string)

  /** The `name` attribute of the input that changed. */
  datatype FieldName = Username | Password1 | Password2 | Email

  datatype Page = Page(form: Form, error: ApiError, isSubmitting: bool)

  datatype Event =
    | Change(name: FieldName, value: string)
    | Submit
    | Registered                 // `postUser` resolved
    | RegisterFailed(c: Caught)  // `postUser` rejected

  datatype Effect = PostUser(sent: Form) | Navigate(path: string, message: string)

  const Initial := Page(Form("", "", "", ""), NoError, false)

  /** `handleInputChange`: the named field takes the new value. */
  function SetField(f: Form, name: FieldName, value: string): (g: Form)
    ensures name.Username? ==> g == f.(username := value)
    ensures name.Password1? ==> g == f.(password1 := value)
    ensures name.Password2? ==> g == f.(password2 := value)
    ensures name.Email? ==> g == f.(email := value)
  {
    match name
    case Username => f.(username := value)
    case Password1 => f.(password1 := value)
    case Password2 => f.(password2 := value)
    case Email => f.(email := value)
  }

  /** The client-side check `onSubmit` runs before any request: the mismatch test
      comes first, then the length test. */
  function Validate(f: Form): (r: Option<string>)
    ensures r.None? <==> f.password1 == f.password2 && JsLength(f.password1) >= MinPasswordLength
    ensures f.password1 != f.password2 ==> r == Some(MismatchMessage)
    ensures f.password1 == f.password2 && JsLength(f.password1) < MinPasswordLength ==> r == Some(TooShortMessage)
  {
    if f.password1 != f.password2 then Some(MismatchMessage)
    else if JsLength(f.password1) < MinPasswordLength then Some(TooShortMessage)
    else None
  }

  /** The controller: the page after the event, and what it asks the outside world to do. */
  function Step(p: Page, e: Event): (r: (Page, seq<Effect>))
    ensures r.0.form != p.form ==> e.Change?
    ensures e.Change? ==> r.0.form == SetField(p.form, e.name, e.value) && r.1 == []
                          && r.0.isSubmitting == p.isSubmitting && r.0.error == p.error
    ensures |r.1| <= 1
    ensures (r.1 != [] && r.1[0].PostUser?) <==> e.Submit? && !p.isSubmitting && Validate(p.form).None?
    ensures r.1 != [] && r.1[0].PostUser? ==> r.1[0].sent == p.form && r.0.error == NoError
    ensures e.Submit? && !p.isSubmitting && Validate(p.form).Some? ==>
              r.1 == [] && r.0.error == Message(Validate(p.form).value)
    ensures (r.1 != [] && r.1[0].Navigate?) <==> e.Registered? && p.isSubmitting
    ensures r.1 != [] && r.1[0].Navigate? ==> r.1[0] == Navigate("/user-login", DoneMessage)
    ensures (e.Submit? || e.Registered? || e.RegisterFailed?) && p.isSubmitting == e.Submit? ==> r == (p, [])
    ensures r.0.error != p.error ==> (e.Submit? && !p.isSubmitting) || (e.RegisterFailed? && p.isSubmitting)
    ensures e.RegisterFailed? && p.isSubmitting ==> r.0.error == Classify(e.c, FailureFallback)
    ensures r.0.isSubmitting != p.isSubmitting <==>
              (e.Submit? && !p.isSubmitting && Validate(p.form).None?) || ((e.Registered? || e.RegisterFailed?) && p.isSubmitting)
  {
    match e
    case Change(name, value) => (p.(form := SetField(p.form, name, value)), [])
    case Submit =>
      if p.isSubmitting then (p, [])
      else
        (match Validate(p.form)
         case Some(msg) => (p.(error := Message(msg)), [])
         case None => (p.(isSubmitting := true, error := NoError), [PostUser(p.form)]))
    case Registered =>
      if !p.isSubmitting then (p, [])
      else (p.(isSubmitting := false), [Navigate("/user-login", DoneMessage)])
    case RegisterFailed(c) =>
      if !p.isSubmitting then (p, [])
      else (p.(isSubmitting := false, error := Classify(c, FailureFallback)), [])
  }

  /** The confirmation field is marked invalid while it is non-empty and differs. */
  predicate ConfirmationInvalid(f: Form) {
    |f.password2| > 0 && f.password1 != f.password2
  }

  /** Inputs and the button are disabled while a request is outstanding. */
  predicate ControlsDisabled(p: Page) {
    p.isSubmitting
  }

  /** A request goes out only for a form that passes both checks, and then carries
      the whole form unchanged. */
  lemma RequestOnlyWhenValid(p: Page, e: Event)
    ensures Step(p, e).1 != [] && Step(p, e).1[0].PostUser? ==>
      e.Submit? && !p.isSubmitting && p.form.password1 == p.form.password2
      && JsLength(p.form.password1) >= MinPasswordLength && Step(p, e).1 == [PostUser(p.form)]
  {
  }

  /** When both checks fail, the mismatch is what the user sees. */
  lemma MismatchReportedFirst(p: Page)
    requires !p.isSubmitting && p.form.password1 != p.form.password2
    requires JsLength(p.form.password1) < MinPasswordLength
    ensures Lines(Step(p, Submit).0.error) == [Text(MismatchMessage)]
  {
  }

  /** A non-empty confirmation that differs is flagged, and submitting it is refused. */
  lemma FlaggedConfirmationRefused(p: Page)
    requires !p.isSubmitting && ConfirmationInvalid(p.form)
    ensures Step(p, Submit).1 == []
  {
  }

  /** Editing one field leaves the others as they were. */
  lemma ChangeTouchesOneField(f: Form, name: FieldName, value: string)
    ensures var g := SetField(f, name, value);
      && (name != Username ==> g.username == f.username)
      && (name != Password1 ==> g.password1 == f.password1)
      && (name != Password2 ==> g.password2 == f.password2)
      && (name != Email ==> g.email == f.email)
  {
  }

  predicate IsRequest(f: Effect) {
    f.PostUser?
  }

  predicate IsResponse(e: Event) {
    e.Registered? || e.RegisterFailed?
  }

  predicate Busy(p: Page) {
    p.isSubmitting
  }

  /** Every step keeps to one outstanding registration request. */
  lemma StepSingleFlight()
    ensures SingleFlightStep(Step, Busy, IsRequest, IsResponse)
  {
    forall p, e
      ensures CountWhere(Step(p, e).1, IsRequest) + B(Busy(p))
              <= B(Busy(Step(p, e).0)) + B(IsResponse(e))
    {
    }
  }

  /** However the user clicks, from the initial page the registration requests sent
      never outnumber the responses received by more than one. */
  lemma NeverTwoRequestsInFlight(events: seq<Event>)
    ensures CountWhere(Run(Step, Initial, events).1, IsRequest) <= CountWhere(events, IsResponse) + 1
  {
    StepSingleFlight();
    SingleFlight(Step, Busy, IsRequest, IsResponse, Initial, events);
  }
}

=== FILE: user_crud.dfy ===
/** The user store operations of the backend (domain/user/user_crud.py): password
    hashing with bcrypt's 72-byte limit, and the three queries on the user table.
    bcrypt is symbolic: a hash records the key bytes and the salt it was made from,
    so checking a key against a hash succeeds exactly for the key that made it. */
module UserCrud {
  import opened Wrappers
  import opened Unicode

  /** bcrypt uses at most this many bytes of a password. */
  const MaxKeyBytes := 72

  /** A salt as `bcrypt.gensalt()` returns it; its randomness is a parameter. */
  datatype Salt = Salt(bytes: seq<Byte>)

  /** A bcrypt hash, symbolically: the key and salt it was computed from. */
  datatype Hash = Digest(key: seq<Byte>, salt: Salt)

  /** `bcrypt.hashpw`, which refuses keys longer than 72 bytes. */
  function Hashpw(key: seq<Byte>, salt: Salt): (h: Hash)
    requires |key| <= MaxKeyBytes
    ensures h.salt == salt
  {
    Digest(key, salt)
  }

  /** `bcrypt.checkpw`: the key hashed under the hash's own salt gives the hash. */
  function Checkpw(key: seq<Byte>, hashed: Hash): (ok: bool)
    requires |key| <= MaxKeyBytes
  {
    Hashpw(key, hashed.salt) == hashed
  }

  /** The one property of bcrypt the model relies on: a key checks against a hash
      exactly when it is the key the hash was made from. Real bcrypt has it for
      keys without a 0 byte only; keys with one are outside the model. */
  lemma CheckpwIffSameKey(key: seq<Byte>, original: seq<Byte>, salt: Salt)
    requires |key| <= MaxKeyBytes && |original| <= MaxKeyBytes
    ensures Checkpw(key, Hashpw(original, salt)) <==> key == original
  {
  }

  /** The bytes both hashing and checking hand to bcrypt: the UTF-8 encoding of the
      password, cut to its first 72 bytes when longer. */
  function PasswordKey(password: string): (key: seq<Byte>)
    ensures |key| <= MaxKeyBytes
    ensures |Utf8(password)| <= MaxKeyBytes ==> key == Utf8(password)
    ensures |Utf8(password)| > MaxKeyBytes ==> key == Utf8(password)[..MaxKeyBytes]
  {
    var b := Utf8(password);
    if |b| > MaxKeyBytes then b[..MaxKeyBytes] else b
  }

  /** `_hash_password`, with the salt `gensalt` would produce as a parameter. */
  function HashPassword(password: string, salt: Salt): (h: Hash)
    ensures |h.key| <= MaxKeyBytes && h.salt == salt
  {
    Hashpw(PasswordKey(password), salt)
  }

  /** `verify_password`: the password checks exactly when hashing it under the
      stored hash's own salt reproduces that hash, that is, when its 72-byte key
      is the key the hash was made from. */
  function VerifyPassword(plain: string, hashed: Hash): (ok: bool)
    ensures ok <==> hashed == HashPassword(plain, hashed.salt)
    ensures ok <==> hashed.key == PasswordKey(plain)
  {
    Checkpw(PasswordKey(plain), hashed)
  }

  /** A password verifies against its own hash, whatever the salt. */
  lemma VerifyOwnHash(password: string, salt: Salt)
    ensures VerifyPassword(password, HashPassword(password, salt))
  {
  }

  /** Two passwords whose encodings agree on the first 72 bytes (both being at least
      that long) are interchangeable: each verifies against the other's hash and
      they hash alike under the same salt. */
  lemma SamePrefixSameTreatment(p: string, q: string, salt: Salt)
    requires |Utf8(p)| >= MaxKeyBytes && |Utf8(q)| >= MaxKeyBytes
    requires Utf8(p)[..MaxKeyBytes] == Utf8(q)[..MaxKeyBytes]
    ensures HashPassword(p, salt) == HashPassword(q, salt)
    ensures VerifyPassword(q, HashPassword(p, salt)) && VerifyPassword(p, HashPassword(q, salt))
  {
    LongKey(p);
    LongKey(q);
  }

  /** A password of 72 bytes or more is keyed by its first 72 bytes. */
  lemma LongKey(p: string)
    requires |Utf8(p)| >= MaxKeyBytes
    ensures PasswordKey(p) == Utf8(p)[..MaxKeyBytes]
  {
    var b := Utf8(p);
    if |b| == MaxKeyBytes {
      assert b[..MaxKeyBytes] == b;
    }
  }

  /** Whatever is appended to a password of 72 bytes or more is ignored. */
  lemma {:induction false} LongPasswordSuffixIgnored(p: string, extra: string, salt: Salt)
    requires |Utf8(p)| >= MaxKeyBytes
    ensures VerifyPassword(p + extra, HashPassword(p, salt))
  {
    Utf8Append(p, extra);
    assert Utf8(p + extra)[..MaxKeyBytes] == Utf8(p)[..MaxKeyBytes];
  }

  /** A password shorter than 72 bytes is accepted by its hash and by nothing else
      (as bcrypt behaves for passwords without U+0000). */
  lemma {:induction false} ShortPasswordExact(p: string, q: string, salt: Salt)
    requires |Utf8(p)| < MaxKeyBytes
    ensures VerifyPassword(q, HashPassword(p, salt)) <==> q == p
  {
    if VerifyPassword(q, HashPassword(p, salt)) {
      assert PasswordKey(q) == Utf8(p);
      assert |Utf8(q)| <= MaxKeyBytes;
      Utf8Injective(p, q);
    }
  }

  /** A row of the user table. */
  datatype User = User(username: string, password: Hash, email: string)

  /** The registration form (`UserCreate`); `password2` is only compared by the
      schema, which is not part of this model. */
  datatype UserCreate = UserCreate(username: string, password1: string, password2: string, email: string)

  /** The index of the first row satisfying `matches`, in table order. */
  function FirstMatch(users: seq<User>, matches: User -> bool): (r: Option<nat>)
    ensures r.Some? ==> r.value < |users| && matches(users[r.value])
    ensures r.Some? ==> forall j :: 0 <= j < r.value ==> !matches(users[j])
    ensures r.None? <==> forall j :: 0 <= j < |users| ==> !matches(users[j])
    decreases |users|
  {
    if users == [] then None
    else if matches(users[0]) then Some(0)
    else
      match FirstMatch(users[1..], matches)
      case None => None
      case Some(i) => Some(i + 1)
  }

  function First(users: seq<User>, matches: User -> bool): (r: Option<User>)
    ensures r.Some? <==> exists j :: 0 <= j < |users| && matches(users[j])
    ensures r.Some? ==> r.value in users && matches(r.value)
  {
    match FirstMatch(users, matches)
    case None => None
    case Some(i) => Some(users[i])
  }

  /** `get_existing_user`: the first user with the requested username or email. */
  function GetExistingUser(users: seq<User>, form: UserCreate): (r: Option<User>)
    ensures r.Some? <==>
      (exists j :: 0 <= j < |users| && (users[j].username == form.username || users[j].email == form.email))
    ensures r.Some? ==> r.value in users && (r.value.username == form.username || r.value.email == form.email)
  {
    First(users, (u: User) => u.username == form.username || u.email == form.email)
  }

  /** `get_user`: the first user with the username; the email plays no part. */
  function GetUser(users: seq<User>, username: string): (r: Option<User>)
    ensures r.Some? <==> exists j :: 0 <= j < |users| && users[j].username == username
    ensures r.Some? ==> r.value in users && r.value.username == username
  {
    First(users, (u: User) => u.username == username)
  }

  /** `create_user`: one row appended with the username, the email and the hash of
      `password1`. */
  function CreateUser(users: seq<User>, form: UserCreate, salt: Salt): (r: seq<User>)
    ensures |r| == |users| + 1 && r[..|users|] == users
    ensures var u := r[|users|];
      u.username == form.username && u.email == form.email && VerifyPassword(form.password1, u.password)
  {
    users + [User(form.username, HashPassword(form.password1, salt), form.email)]
  }
}

=== FILE: user_login_page.dfy ===
/** The login page controller (frontend/src/pages/UserLogin.tsx): field edits,
    the single login request, and what success and failure do to the session. */
module UserLoginPage {
  import opened Wrappers
  import opened ErrorView
  import opened PageCommon
  import AuthContext

  const FailureFallback := "로그인에 실패했습니다."
  const WelcomeMessage := "로그인에 성공했습니다."

  datatype Form = Form(username: string, password: string)

  datatype FieldName = Username | Password

  datatype Page = Page(form: Form, error: ApiError, isSubmitting: bool)

  datatype Event =
    | Change(name: FieldName, value: string)
    | Submit
    | LoggedIn(accessToken: string, user: AuthContext.User)  // `loginUser` resolved with these fields
    | LoginFailed(c: Caught)                                 // `loginUser` rejected

  datatype Effect =
    | LoginUser(username: string, password: string)          // the request
    | StoreLogin(user: AuthContext.User, token: string)      // the session store's `login`
    | Navigate(path: string, message: string)

  const Initial := Page(Form("", ""), NoError, false)

  /** `handleInputChange`. */
  function SetField(f: Form, name: FieldName, value: string): (g: Form)
    ensures name.Username? ==> g.username == value && g.password == f.password
    ensures name.Password? ==> g.password == value && g.username == f.username
  {
    match name
    case Username => f.(username := value)
    case Password => f.(password := value)
  }

  /** One event: only a field edit touches the form, and it sends nothing; a request
      goes out exactly for a submit with none in flight, carrying the form's
      credentials and clearing the error; a response arriving with nothing in flight
      changes nothing; the session is stored, then home shown, exactly on a success;
      the error changes only when a request starts or fails. */
  function Step(p: Page, e: Event): (r: (Page, seq<Effect>))
    ensures r.0.form != p.form ==> e.Change?
    ensures e.Change? ==> r.1 == [] && r.0.isSubmitting == p.isSubmitting && r.0.error == p.error
    ensures (|r.1| == 1 && r.1[0].LoginUser?) <==> e.Submit? && !p.isSubmitting
    ensures e.Submit? && !p.isSubmitting ==>
      r.1 == [LoginUser(p.form.username, p.form.password)] && r.0.isSubmitting && r.0.error == NoError
    ensures (e.LoggedIn? || e.LoginFailed? || e.Submit?) && p.isSubmitting == e.Submit? ==> r == (p, [])
    ensures |r.1| == 2 <==> e.LoggedIn? && p.isSubmitting
    ensures |r.1| == 2 ==> r.1 == [StoreLogin(e.user, e.accessToken), Navigate("/", WelcomeMessage)]
    ensures r.0.error != p.error ==> (e.Submit? && !p.isSubmitting) || (e.LoginFailed? && p.isSubmitting)
    ensures r.0.isSubmitting != p.isSubmitting <==> (e.Submit? || e.LoggedIn? || e.LoginFailed?) && p.isSubmitting != e.Submit?
  {
    match e
    case Change(name, value) => (p.(form := SetField(p.form, name, value)), [])
    case Submit =>
      if p.isSubmitting then (p, [])
      else (p.(isSubmitting := true, error := NoError), [LoginUser(p.form.username, p.form.password)])
    case LoggedIn(token, user) =>
      if !p.isSubmitting then (p, [])
      else (p.(isSubmitting := false), [StoreLogin(user, token), Navigate("/", WelcomeMessage)])
    case LoginFailed(c) =>
      if !p.isSubmitting then (p, [])
      else (p.(isSubmitting := false, error := Classify(c, FailureFallback)), [])
  }

  predicate IsRequest(f: Effect) {
    f.LoginUser?
  }

  predicate IsResponse(e: Event) {
    e.LoggedIn? || e.LoginFailed?
  }

  predicate Busy(p: Page) {
    p.isSubmitting
  }

  lemma StepSingleFlight()
    ensures SingleFlightStep(Step, Busy, IsRequest, IsResponse)
  {
    forall p, e
      ensures CountWhere(Step(p, e).1, IsRequest) + B(Busy(p))
              <= B(Busy(Step(p, e).0)) + B(IsResponse(e))
    {
    }
  }

  /** From the initial page, login requests never outnumber responses by more than one. */
  lemma NeverTwoRequestsInFlight(events: seq<Event>)
    ensures CountWhere(Run(Step, Initial, events).1, IsRequest) <= CountWhere(events, IsResponse) + 1
  {
    StepSingleFlight();
    SingleFlight(Step, Busy, IsRequest, IsResponse, Initial, events);
  }

  /** The session store's login is called only on a successful response, once, with
      that response's user and token, and before the navigation home. */
  lemma LoginOnlyOnSuccess(p: Page, e: Event)
    ensures forall i :: 0 <= i < |Step(p, e).1| && Step(p, e).1[i].StoreLogin? ==>
      e.LoggedIn? && p.isSubmitting && i == 0
      && Step(p, e).1[i] == StoreLogin(e.user, e.accessToken)
      && Step(p, e).1[1] == Navigate("/", WelcomeMessage)
  {
  }

  /** A failed login leaves the session alone and shows the error instead. */
  lemma FailureKeepsSession(p: Page, c: Caught)
    requires p.isSubmitting
    ensures forall i :: 0 <= i < |Step(p, LoginFailed(c)).1| ==> !Step(p, LoginFailed(c)).1[i].StoreLogin?
    ensures Step(p, LoginFailed(c)).0.error == Classify(c, FailureFallback)
    ensures !Step(p, LoginFailed(c)).0.isSubmitting
  {
  }
}

=== FILE: user_router.dfy ===
/** The user endpoints of the backend (domain/user/user_router.py): registration
    and the two login forms, over the user table as a sequence. The clock and
    bcrypt's random salt are parameters; JWT signing is symbolic. */
module UserRouter {
  import opened Wrappers
  import opened Text
  import opened UserCrud
  import opened Settings

  const ConflictDetail := "이미 존재하는 사용자입니다."
  const BadLoginDetail := "Incorrect username or password"

  /** The JWT settings read from the environment when the module is imported. */
  datatype JwtSettings = JwtSettings(expireMinutes: int, secretKey: string, algorithm: string)

  /** Why importing the module fails. */
  datatype StartupError = BadExpireMinutes | MissingSecretKey

  /** The module-level settings: the expiry is `int()` of its variable (default
      1440; more than `MaxStrDigits` digits is refused like any other bad
      numeral), the algorithm defaults to HS256, and an empty or unset secret key
      stops the import. */
  function LoadJwtSettings(env: Environ): (r: Result<JwtSettings, StartupError>)
    ensures r.Ok? <==> PyInt(GetEnv(env, "ACCESS_TOKEN_EXPIRE_MINUTES", "1440")).Some?
                       && "SECRET_KEY" in env && env["SECRET_KEY"] != ""
    ensures r.Ok? ==> r.value == JwtSettings(PyInt(GetEnv(env, "ACCESS_TOKEN_EXPIRE_MINUTES", "1440")).value,
                                             env["SECRET_KEY"], GetEnv(env, "ALGORITHM", "HS256"))
  {
    match PyInt(GetEnv(env, "ACCESS_TOKEN_EXPIRE_MINUTES", "1440"))
    case None => Err(BadExpireMinutes)
    case Some(minutes) =>
      var key := GetEnv(env, "SECRET_KEY", "");
      if key == "" then Err(MissingSecretKey)
      else Ok(JwtSettings(minutes, key, GetEnv(env, "ALGORITHM", "HS256")))
  }

  /** The default expiry reads as a day in minutes. */
  lemma DefaultExpiryReads()
    ensures PyInt("1440") == Some(1440)
  {
    assert NatToString(1440) == "1440" by {
      assert NatToString(14) == "14";
      assert NatToString(144) == "144";
    }
    PyIntOfDecimal(1440);
  }

  /** With only a secret key set, tokens last a day and are signed with HS256. */
  lemma JwtSettingsDefaults(key: string)
    requires key != ""
    ensures LoadJwtSettings(map["SECRET_KEY" := key]) == Ok(JwtSettings(1440, key, "HS256"))
  {
    var env := map["SECRET_KEY" := key];
    assert GetEnv(env, "ACCESS_TOKEN_EXPIRE_MINUTES", "1440") == "1440";
    assert GetEnv(env, "SECRET_KEY", "") == key;
    assert GetEnv(env, "ALGORITHM", "HS256") == "HS256";
    DefaultExpiryReads();
  }

  /** A missing secret key, or an expiry that is not an integer, stops the import. */
  lemma JwtSettingsRefused(key: string)
    ensures LoadJwtSettings(map[]).Err?
    ensures LoadJwtSettings(map["SECRET_KEY" := key, "ACCESS_TOKEN_EXPIRE_MINUTES" := "1.5"]) == Err(BadExpireMinutes)
  {
    assert NatToString(1) + ".5" == "1.5";
    PyIntRejectsSuffix(1, ".5");
  }

  /** The claims of an access token; `exp` in seconds since the epoch. */
  datatype Claims = Claims(sub: string, exp: int)

  /** A signed token, symbolically: what was signed, with which key and algorithm. */
  datatype Jwt = Jwt(claims: Claims, key: string, algorithm: string)

  datatype Response =
    | NoContent                                                      // 204
    | HttpError(status: int, detail: string, headers: seq<(string, string)>)
    | TokenBody(accessToken: Jwt, tokenType: string, username: string)

  const Conflict := HttpError(409, ConflictDetail, [])
  const Unauthorized := HttpError(401, BadLoginDetail, [("WWW-Authenticate", "Bearer")])
  /** What the server answers when the handler raises an exception it does not catch. */
  const InternalError := HttpError(500, "Internal Server Error", [])

  /** `user_create`: a conflict when any user has the username or the email, else
      the new user is stored. Returns the response and the table afterwards. */
  function Register(users: seq<User>, form: UserCreate, salt: Salt): (r: (Response, seq<User>))
    ensures r.0 == Conflict <==>
      exists j :: 0 <= j < |users| && (users[j].username == form.username || users[j].email == form.email)
    ensures r.0 == Conflict ==> r.1 == users
    ensures r.0 != Conflict ==> r.0 == NoContent && |r.1| == |users| + 1 && r.1[..|users|] == users
  {
    if GetExistingUser(users, form).Some? then (Conflict, users)
    else (NoContent, CreateUser(users, form, salt))
  }

  /** The first and last instants a `datetime` can hold, 0001-01-01T00:00:00 and
      9999-12-31T23:59:59, in seconds since the Unix epoch. */
  const MinDatetime := -62135596800
  const MaxDatetime := 253402300799

  predicate IsDatetime(t: int) {
    MinDatetime <= t <= MaxDatetime
  }

  /** The algorithms `jwt.encode` signs with a plain-text secret: the HMAC family. */
  predicate IsHmacAlgorithm(alg: string) {
    alg == "HS256" || alg == "HS384" || alg == "HS512"
  }

  /** The texts python-jose's HMAC key refuses to find in its secret, because they
      mark a public key or certificate (python-jose 3.3). The secret's UTF-8 bytes
      are searched; every marker is ASCII, so searching the characters is the same. */
  const RefusedKeyMarkers: seq<string> := [
    "-----BEGIN PUBLIC KEY-----",
    "-----BEGIN RSA PUBLIC KEY-----",
    "-----BEGIN CERTIFICATE-----",
    "ssh-rsa"
  ]

  /** A secret the HMAC key constructor rejects with `JWKError`. */
  predicate RefusedHmacSecret(secret: string) {
    exists i :: 0 <= i < |RefusedKeyMarkers| && Contains(secret, RefusedKeyMarkers[i])
  }

  /** When a token can be made: the expiry `utcnow() + timedelta(minutes=...)` is a
      `datetime` (otherwise the addition raises `OverflowError`), the algorithm
      can sign and the secret is one the HMAC key accepts (otherwise `jwt.encode`
      raises `JWSError`). A clock reading outside the `datetime` range cannot come
      from `utcnow()`; it is refused the same way. */
  predicate CanIssue(settings: JwtSettings, now: int) {
    && IsDatetime(now)
    && IsDatetime(now + 60 * settings.expireMinutes)
    && IsHmacAlgorithm(settings.algorithm)
    && !RefusedHmacSecret(settings.secretKey)
  }

  /** The token issued to `username` at `now` (whole seconds; the clock is a
      parameter), or the server error an expiry out of range or an algorithm that
      cannot sign ends in. */
  function IssueToken(settings: JwtSettings, username: string, now: int): (r: Response)
    ensures r.TokenBody? <==> CanIssue(settings, now)
    ensures !r.TokenBody? ==> r == InternalError
    ensures r.TokenBody? ==> r.tokenType == "bearer" && r.username == username
    ensures r.TokenBody? ==> r.accessToken.claims == Claims(username, now + 60 * settings.expireMinutes)
  {
    if !CanIssue(settings, now) then InternalError
    else
      var claims := Claims(username, now + 60 * settings.expireMinutes);
      TokenBody(Jwt(claims, settings.secretKey, settings.algorithm), "bearer", username)
  }

  /** The password check both login endpoints make. */
  predicate Authenticates(users: seq<User>, username: string, password: string) {
    GetUser(users, username).Some? && VerifyPassword(password, GetUser(users, username).value.password)
  }

  /** `login_for_access_token`, on the JSON body. */
  function Login(users: seq<User>, username: string, password: string, settings: JwtSettings, now: int): (r: Response)
    ensures r == Unauthorized <==> !Authenticates(users, username, password)
    ensures r.TokenBody? <==> Authenticates(users, username, password) && CanIssue(settings, now)
    ensures r == InternalError <==> Authenticates(users, username, password) && !CanIssue(settings, now)
    ensures r.TokenBody? ==> r.username == username && r.accessToken.claims.sub == username
  {
    var user := GetUser(users, username);
    if user.None? || !VerifyPassword(password, user.value.password) then Unauthorized
    else IssueToken(settings, user.value.username, now)
  }

  /** `login_oauth2_format`, on the form fields; its body repeats the JSON login. */
  function LoginOAuth2(users: seq<User>, formUsername: string, formPassword: string, settings: JwtSettings, now: int): (r: Response)
    ensures r == Unauthorized <==> !Authenticates(users, formUsername, formPassword)
    ensures r.TokenBody? <==> Authenticates(users, formUsername, formPassword) && CanIssue(settings, now)
    ensures r == InternalError <==> Authenticates(users, formUsername, formPassword) && !CanIssue(settings, now)
    ensures r.TokenBody? ==> r.username == formUsername && r.accessToken.claims.sub == formUsername
  {
    match GetUser(users, formUsername)
    case None => Unauthorized
    case Some(user) =>
      if !VerifyPassword(formPassword, user.password) then Unauthorized
      else if !CanIssue(settings, now) then InternalError
      else
        TokenBody(Jwt(Claims(user.username, now + 60 * settings.expireMinutes), settings.secretKey, settings.algorithm),
                  "bearer", user.username)
  }

  /** With the default day-long expiry, HS256 and a secret the HMAC key accepts, a
      login at any instant up to a day before the end of the `datetime` range gets
      a token; an expiry of 4.3 billion minutes (about 8,200 years) overflows at any
      instant from the epoch on, whatever the secret. */
  lemma ExpiryRange(users: seq<User>, username: string, password: string, key: string, now: int)
    requires Authenticates(users, username, password)
    ensures IsDatetime(now) && now + 86400 <= MaxDatetime && !RefusedHmacSecret(key) ==>
      Login(users, username, password, JwtSettings(1440, key, "HS256"), now).TokenBody?
    ensures now >= 0 ==>
      Login(users, username, password, JwtSettings(4300000000, key, "HS256"), now) == InternalError
  {
  }

  /** A secret holding an OpenSSH RSA public key anywhere turns every correct login
      into a server error, whatever the algorithm and expiry. */
  lemma SshKeySecretRefused(users: seq<User>, username: string, password: string, settings: JwtSettings, now: int, at: nat)
    requires Authenticates(users, username, password)
    requires at + 7 <= |settings.secretKey| && settings.secretKey[at..at + 7] == "ssh-rsa"
    ensures Login(users, username, password, settings, now) == InternalError
  {
    ContainsAt(settings.secretKey, RefusedKeyMarkers[3], at);
  }

  /** An algorithm outside the HMAC family turns every correct login into a server error. */
  lemma UnsupportedAlgorithm(users: seq<User>, username: string, password: string, settings: JwtSettings, now: int)
    requires Authenticates(users, username, password) && !IsHmacAlgorithm(settings.algorithm)
    ensures Login(users, username, password, settings, now) == InternalError
  {
  }

  /** Both login endpoints give the same answer to the same credentials. */
  lemma OAuth2SameAsJson(users: seq<User>, username: string, password: string, settings: JwtSettings, now: int)
    ensures LoginOAuth2(users, username, password, settings, now) == Login(users, username, password, settings, now)
  {
  }

  /** An unknown user and a known user with a wrong password get the very same
      response, so its content does not reveal which usernames exist (how long the
      answer takes is not modelled: only a known user's password is hashed). */
  lemma NoUsernameOracle(users: seq<User>, unknown: string, known: string, wrong: string, p: string, q: string,
                         settings: JwtSettings, now: int, later: int)
    requires GetUser(users, unknown).None?
    requires GetUser(users, known).Some? && !VerifyPassword(wrong, GetUser(users, known).value.password)
    ensures Login(users, unknown, p, settings, now) == Login(users, known, wrong, settings, later) == Unauthorized
  {
  }

  /** A successful login's token names the user and expires the configured number of
      minutes after it was issued. */
  lemma TokenContents(users: seq<User>, username: string, password: string, settings: JwtSettings, now: int)
    requires Login(users, username, password, settings, now).TokenBody?
    ensures var r := Login(users, username, password, settings, now);
      && r.tokenType == "bearer" && r.username == username
      && r.accessToken == Jwt(Claims(username, now + 60 * settings.expireMinutes), settings.secretKey, settings.algorithm)
  {
  }

  /** No two users share a username or an email. */
  predicate Unique(users: seq<User>) {
    forall i, j :: 0 <= i < j < |users| ==>
      users[i].username != users[j].username && users[i].email != users[j].email
  }

  /** Registration keeps usernames and emails unique. */
  lemma RegisterKeepsUnique(users: seq<User>, form: UserCreate, salt: Salt)
    requires Unique(users)
    ensures Unique(Register(users, form, salt).1)
  {
    var (r, after) := Register(users, form, salt);
    if r != Conflict {
      forall i, j | 0 <= i < j < |after|
        ensures after[i].username != after[j].username && after[i].email != after[j].email
      {
        if j == |users| {
          assert after[i] == users[i];
        }
      }
    }
  }

  /** Whoever has just registered can log in with the first password they typed,
      and gets a token in their own name. */
  lemma RegisterThenLogin(users: seq<User>, form: UserCreate, salt: Salt, settings: JwtSettings, now: int)
    requires Register(users, form, salt).0 == NoContent
    ensures var after := Register(users, form, salt).1;
      Login(after, form.username, form.password1, settings, now) == IssueToken(settings, form.username, now)
  {
    var after := Register(users, form, salt).1;
    var matches := (u: User) => u.username == form.username;
    assert forall j :: 0 <= j < |users| ==> !matches(after[j]) by {
      assert forall j :: 0 <= j < |users| ==> after[j] == users[j];
    }
    FirstMatchAfterMisses(after, |users|, matches);
  }

  /** When no row before `k` matches and row `k` does, row `k` is the first match. */
  lemma {:induction false} FirstMatchAfterMisses(users: seq<User>, k: nat, matches: User -> bool)
    requires k < |users| && matches(users[k])
    requires forall j :: 0 <= j < k ==> !matches(users[j])
    ensures FirstMatch(users, matches) == Some(k)
    decreases k
  {
    if k > 0 {
      FirstMatchAfterMisses(users[1..], k - 1, matches);
    }
  }
}

=== FILE: wrappers.dfy ===
/** Option and Result types shared by every module of the model. */
module Wrappers {

  /** A value that may be absent: JavaScript's null/undefined, Python's None. */
  datatype Option<+T> = None | Some(value: T) {

    /** The wrapped value, or `default` when absent (JavaScript's `??`). */
    function GetOr(default: T): T {
      match this
      case Some(v) => v
      case None => default
    }
  }

  /** The outcome of an operation that can fail with an error value (a thrown exception). */
  datatype Result<+R, +E> = Ok(value: R) | Err(error: E)
}
